=== FILE: README.md ===
# Insider careers acceptance suite, modelled in Dafny

This project models the Selenium/TestNG acceptance suite for the Insider web site (useinsider.com). The suite opens the
home page and checks its landmarks and header tabs. It then walks through the Company menu to the Careers page and
checks the Locations, Teams and Life at Insider sections. Next it opens the Quality Assurance careers page, asks for
all QA jobs and filters them by location and department. Finally it checks every listed job against the expected
position, department and location, and clicks the first "View Role" button, which should land on the Lever
application site. It also covers the screenshot utility that names, stores and cleans up the captures taken on
failure.

The browser is an oracle. `Browser.Session` is an immutable record of total functions:
- what a locator finds;
- whether an element is displayed;
- what its text, child elements and dropdown options are;
- whether an action (native click, JavaScript click, pointer click, hover, select) succeeds;
- whether an explicit wait succeeds within a timeout;
- what the title, URL and page source read.

Each read either returns a value or throws (`Outcomes.Reply`). Java `null` is `Outcomes.Option`. An operation that can
raise is a `Outcomes.Result` whose error is one of:
- a `RuntimeException` with message and cause (`Runtime`);
- an `AssertionError` (`Assertion`);
- a browser fault;
- a wait timeout.

`Assertion` is the only error that a `catch (Exception e)` does not catch.

Modules follow the Java classes:
- `BasePage`: waits, the click ladder, element lookup, the cookie banner, navigation.
- `Fallback`: the "try each candidate until one works" loop the pages use everywhere.
- `HomePage`, `CareersPage`, `QACareersPage`: the page objects.
- `ScreenshotUtil`: file naming, timestamp, capture, retention.
- `InsiderTest`: the six test methods, chained so that each of the last five depends on the one before it, and the after-method capture hook.
- `Text`: the `String` operations the suite relies on (`contains`, `trim`, ASCII `toLowerCase`, `replace(" ", "")`).
- `Config`: the constants.

## Model

| member | source | states |
|---|---|---|
| Outcomes.AssertTrueFailure | src/test/java/automation/com/tests/InsiderTest.java:152 | TestNG's `assertTrue` failure is an assertion error whose message begins with the caller's message followed by the expected/found suffix |
| Outcomes.AssertTrueFailureInjective | src/test/java/automation/com/tests/InsiderTest.java:152 | different caller messages give different failures, so the failure identifies the assertion that fired |
| Outcomes.AssertTrue | src/test/java/automation/com/tests/InsiderTest.java:152 | an assertion passes exactly when its condition holds, and otherwise fails with the assertion error for its message, which no `catch (Exception e)` catches |
| Text.Trim | src/test/java/automation/com/pages/HomePage.java:76 | `trim()` yields the empty string exactly when every character is at or below U+0020; otherwise it is the slice between the first and last character above U+0020, and it starts and ends with such a character |
| Text.TrimIdempotent | src/test/java/automation/com/pages/CareersPage.java:198 | trimming an already trimmed name changes nothing |
| Text.LowerAscii | src/test/java/automation/com/pages/CareersPage.java:75 | lower-casing keeps the length and maps exactly the ASCII capitals to their lower-case letters, leaving every other character alone |
| Text.LowerAsciiIdempotent | src/test/java/automation/com/pages/CareersPage.java:75 | a lower-cased page source is unchanged by lower-casing it again |
| Text.RemoveSpaces | src/test/java/automation/com/pages/CareersPage.java:117 | the generated section id contains no space, and it holds every other character of the section name exactly as often as the name does |
| Text.RemoveSpacesAppend | src/test/java/automation/com/pages/CareersPage.java:117 | removing spaces from a concatenation is removing them from each part, so the kept characters stay in their order |
| Fallback.FirstSome | src/test/java/automation/com/pages/HomePage.java:143-162 | trying candidates in order: the tried ones form a prefix of the candidates, every tried one before the last failed, a hit is the last one tried, and a miss means every candidate was tried and failed |
| Fallback.FirstSomeSucceedsIffSomeSucceeds | src/test/java/automation/com/pages/HomePage.java:143-162 | the search finds something exactly when some candidate works |
| Fallback.FirstSomeIsEarliest | src/test/java/automation/com/pages/HomePage.java:143-162 | when candidate i is the first that works, the search stops at i and returns its result |
| Fallback.FirstSomeReadsOnlyTried | src/test/java/automation/com/pages/HomePage.java:143-162 | candidates after the one that worked are never consulted: changing their behaviour does not change the search |
| Fallback.FirstAccepted | src/test/java/automation/com/pages/QACareersPage.java:189-209 | the first accepted option is one of the candidates and accepted, and nothing is found exactly when every candidate is rejected |
| BasePage.WaitVisible | src/test/java/automation/com/pages/BasePage.java:55-65 | the strict visibility wait succeeds exactly when the element becomes visible within the explicit wait, returns that element, and otherwise raises the "not visible" error for the locator |
| BasePage.WaitClickable | src/test/java/automation/com/pages/BasePage.java:79-89 | the strict clickability wait succeeds exactly when the element becomes clickable within the explicit wait, and otherwise raises the "not clickable" error |
| BasePage.StrictWaitIsTimedWaitThatRaises | src/test/java/automation/com/pages/BasePage.java:67-77 | the strict waits fail exactly when the timed wait, which returns null instead of raising, would return null |
| BasePage.Resolve | src/test/java/automation/com/pages/BasePage.java:426-430 | a locator resolves to an element exactly when the timed visibility wait (BasePage.java:67-77) returns it within the timeout and a fresh `findElement` finds it, and then it is the element that lookup finds; the same pattern recurs at HomePage.java:148-149 and QACareersPage.java:486-487 |
| BasePage.FirstVisible | src/test/java/automation/com/pages/HomePage.java:143-162 | the first resolvable locator among alternatives: found exactly when some alternative resolves, and the locator returned is one of them |
| BasePage.FirstAction | src/test/java/automation/com/pages/BasePage.java:97-129 | click tactics are tried in order: every tactic tried before the last failed, success is the last tactic tried, and failure means every tactic failed |
| BasePage.ClickLadder | src/test/java/automation/com/pages/BasePage.java:97-129 | native click wins whenever it works; the JavaScript click is used exactly when the native click fails and it works; then the pointer click, then the dispatched mouse event; the number of attempts is one more than the number of failures |
| BasePage.ScrollThenClick | src/test/java/automation/com/pages/QACareersPage.java:52-95 | the scroll-then-retry path clicks exactly when scrolling works and some tactic of the ladder works |
| BasePage.ClickElement | src/test/java/automation/com/pages/BasePage.java:91-136 | a click raises "Failed to click element: " plus the locator exactly when the element does not become clickable in time (with the wait error as cause) or all four tactics fail; a successful click names a tactic that worked on the clickable element |
| BasePage.IsElementDisplayed | src/test/java/automation/com/pages/BasePage.java:167-180 | an element counts as displayed exactly when the lookup finds it and its displayed flag reads true; a missing element or a failing lookup yields false instead of an error |
| BasePage.GetElements | src/test/java/automation/com/pages/BasePage.java:183-192 | the list lookup yields null exactly when the lookup throws, and otherwise the elements the lookup returned |
| BasePage.CountOf | src/test/java/automation/com/pages/QACareersPage.java:637-662 | the count is positive exactly when the list is non-null and non-empty, and a null list counts zero |
| BasePage.NullAndEmptyBothMeanNoItems | src/test/java/automation/com/pages/QACareersPage.java:397-400 | a failing lookup and an empty result are both treated as "no items" |
| BasePage.VerifyContains | src/test/java/automation/com/pages/BasePage.java:216-241 | a containment assertion passes exactly when the read succeeds and contains the expected text; a read that throws is a browser fault, not an assertion failure |
| BasePage.VerifyPageTitle | src/test/java/automation/com/pages/BasePage.java:216-227 | the title assertion passes exactly when the title reads and contains the expected text |
| BasePage.VerifyCurrentUrl | src/test/java/automation/com/pages/BasePage.java:230-241 | the URL assertion passes exactly when the URL reads and contains the expected text |
| BasePage.HandleCookieBanner | src/test/java/automation/com/pages/BasePage.java:411-481 | no banner exactly when the banner is not displayed; otherwise the button used is the "Accept All" button when it resolves within five seconds and the alternative accept button exactly when it does not, native click is tried before JavaScript click, and the banner counts as dismissed exactly when one of the two clicks works; nothing raises |
| BasePage.NavigateTo | src/test/java/automation/com/pages/BasePage.java:30-43 | navigation succeeds exactly when the browser opens the URL, then handles the cookie banner; otherwise it raises "Failed to navigate to URL: " plus the URL |
| HomePage.NavigateToHomePage | src/test/java/automation/com/pages/HomePage.java:27-32 | opening the home page succeeds exactly when the base URL opens, the title contains "Insider" and the URL contains "useinsider.com"; a failed load raises the navigation error for that URL before any of those checks |
| HomePage.VerifyHomePageOpened | src/test/java/automation/com/pages/HomePage.java:35-59 | the home page counts as opened exactly when the logo, the main navigation and the Company menu are all displayed |
| HomePage.TabMatch | src/test/java/automation/com/pages/HomePage.java:74-80 | the scan stops at the first tab whose trimmed text equals the label and reports it found, whatever later tabs would do; it throws exactly when some tab's text read throws before any match; it reports missing only if every tab was read and none matched |
| HomePage.AllTabsFound | src/test/java/automation/com/pages/HomePage.java:62-95 | all tabs are found exactly when every expected label is found, and the check throws exactly when some label's search throws |
| HomePage.VerifyHeaderNavigationTabs | src/test/java/automation/com/pages/HomePage.java:62-95 | no header tabs means failure; with tabs, the check passes exactly when the scan finds every expected label without throwing, and then every label equals the trimmed text of some tab |
| HomePage.TabMatchReadable | src/test/java/automation/com/pages/HomePage.java:74-80 | when every tab's text can be read, the tab search never throws |
| HomePage.TabMatchReference | src/test/java/automation/com/pages/HomePage.java:74-80 | with readable tabs, the tab search agrees with the plain set-membership definition "some tab trims to the label" |
| HomePage.AllTabsFoundReference | src/test/java/automation/com/pages/HomePage.java:62-95 | with readable tabs, the whole header check agrees with "every label is some tab's trimmed text" |
| HomePage.HeaderTabsReference | src/test/java/automation/com/pages/HomePage.java:62-95 | for a readable, non-null tab list, the header check holds exactly when the tabs are non-empty and every expected label is some tab's trimmed text |
| HomePage.UntrimmedLabelNeverMatches | src/test/java/automation/com/pages/HomePage.java:76 | an expected label that starts with whitespace can never be found, since tab texts are trimmed before comparison |
| HomePage.HoverOverCompanyMenu | src/test/java/automation/com/pages/HomePage.java:98-135 | the hover needs the Company menu visible in time, otherwise it raises with the wait error as cause; once visible, pointer hover, JavaScript hover and click are tried in that order, and it raises "Failed to hover over Company menu" when all fail |
| HomePage.ClickCareersLink | src/test/java/automation/com/pages/HomePage.java:138-187 | no visible Careers link among the four alternatives raises; otherwise the first visible link gets a native click and, when that throws, a script click, and the result names the link and the click that worked |
| HomePage.CareersLinkIsFirstVisible | src/test/java/automation/com/pages/HomePage.java:143-162 | the link clicked is the earliest alternative that resolves |
| HomePage.NavigateToCareersPage | src/test/java/automation/com/pages/HomePage.java:190-208 | reaching the careers page succeeds exactly when the hover and the link click both succeed; either failure is wrapped with that failure as cause |
| CareersPage.VerifyCareersPageOpened | src/test/java/automation/com/pages/CareersPage.java:54-94 | the page counts as opened exactly when the URL reads and contains "careers" and, if the title is missing, the page source can be read; the title, the content block and the page text never change the verdict |
| CareersPage.CareersOpenedIsUrlCheck | src/test/java/automation/com/pages/CareersPage.java:82 | when neither the URL nor the page source throws, the check is exactly "the URL contains careers" |
| CareersPage.SectionDispatchIgnoresCase | src/test/java/automation/com/pages/CareersPage.java:105-119 | the three named sections are matched without regard to ASCII case and each maps to its dedicated locator |
| CareersPage.VerifyRequiredSections | src/test/java/automation/com/pages/CareersPage.java:97-138 | the required sections are verified exactly when each name's locator is displayed; unknown names use the id generated from the lower-cased name without spaces |
| CareersPage.RequiredSectionsAntitone | src/test/java/automation/com/pages/CareersPage.java:97-138 | verifying a longer list of sections implies verifying each part of it |
| CareersPage.AnyHasItems | src/test/java/automation/com/pages/CareersPage.java:167-178 | "any list has items" holds exactly when some locator's list is non-null and non-empty |
| CareersPage.AllHaveItems | src/test/java/automation/com/pages/CareersPage.java:260-276 | "all lists have items" holds exactly when every locator's list is non-null and non-empty |
| CareersPage.SectionOpen | src/test/java/automation/com/pages/CareersPage.java:141-188 | a section is present exactly when its container and heading are displayed and its content lists hold items: every list for a section that needs all of them, some list for a section that needs any of them |
| CareersPage.VerifyLocationsSection | src/test/java/automation/com/pages/CareersPage.java:141-188 | the Locations section is present exactly when its container and title are displayed and the location items or the slider list hold items; the description and slider flags never decide |
| CareersPage.VerifyTeamsSection | src/test/java/automation/com/pages/CareersPage.java:228-289 | the Teams section is present exactly when its container and title are displayed and both the team items and the team titles hold items; images, positions and the See All button never decide |
| CareersPage.VerifyLifeAtInsiderSection | src/test/java/automation/com/pages/CareersPage.java:413-464 | the Life at Insider section is present exactly when its container and title are displayed and the slides or the images hold items; the carousel and swiper flags never decide |
| CareersPage.SectionsIgnoreDecorations | src/test/java/automation/com/pages/CareersPage.java:141-464 | two pages that agree on the containers, titles and the lists that are counted give the same section verdicts |
| CareersPage.TrimmedNames | src/test/java/automation/com/pages/CareersPage.java:191-212 | name collection succeeds exactly when every element's text reads; the names are then the trimmed texts in page order with the blank ones dropped |
| CareersPage.NonBlank | src/test/java/automation/com/pages/CareersPage.java:197-201 | dropping blanks keeps exactly the non-empty names and never lengthens the list |
| CareersPage.NamesKeepPageOrder | src/test/java/automation/com/pages/CareersPage.java:191-212 | when every text trims to something non-empty, the names are the trimmed texts in page order, one per element |
| CareersPage.NamesAreTrimmed | src/test/java/automation/com/pages/CareersPage.java:197-201 | every collected name is non-blank and begins and ends with a character above U+0020 |
| CareersPage.NamesUnder | src/test/java/automation/com/pages/CareersPage.java:191-212 | a failing lookup or a failing read gives an empty list; every name is non-empty and already trimmed |
| CareersPage.NameExists | src/test/java/automation/com/pages/CareersPage.java:215-225 | a name can only be found if it is non-empty and trimmed; a failing list lookup or a text read that throws answers false; when the list reads and every text reads, the name is found exactly when some element's trimmed text equals it |
| CareersPage.VerifyLifeAtInsiderCarouselFunctional | src/test/java/automation/com/pages/CareersPage.java:493-506 | the carousel works exactly when both the slide list and the image list are non-empty |
| CareersPage.GetLifeAtInsiderSlidesCount | src/test/java/automation/com/pages/CareersPage.java:467-477 | the slide count is the number of slides the lookup returns, zero when the lookup fails, and positive exactly when the slide list holds items |
| CareersPage.GetLifeAtInsiderImagesCount | src/test/java/automation/com/pages/CareersPage.java:480-490 | the image count is the number of images the lookup returns, zero when the lookup fails, and positive exactly when the image list holds items |
| CareersPage.CarouselImpliesLifeSection | src/test/java/automation/com/pages/CareersPage.java:413-464 | when the section's container and title are displayed and the carousel works, the section is verified |
| CareersPage.ClickSeeAllTeamsButton | src/test/java/automation/com/pages/CareersPage.java:341-410 | the expansion is only attempted when the Teams section is collapsed, and then reports whether the button resolved and the click ladder worked |
| QACareersPage.NavigateToQACareersPage | src/test/java/automation/com/pages/QACareersPage.java:38-43 | opening the QA page succeeds exactly when its URL opens, the title contains "quality assurance" and the URL contains "quality-assurance"; a failed load raises the navigation error for that URL |
| QACareersPage.VerifyQACareersPageOpened | src/test/java/automation/com/pages/QACareersPage.java:120-140 | the QA page counts as opened exactly when its title is displayed and the URL contains "quality-assurance" |
| QACareersPage.ClickSeeAllQAJobsButton | src/test/java/automation/com/pages/QACareersPage.java:45-118 | the button can only be clicked when it resolves in time, and then the click succeeds exactly when the ladder works |
| QACareersPage.FirstOptionFrom | src/test/java/automation/com/pages/QACareersPage.java:251-275 | scanning options from a position: a hit is the first readable option whose trimmed text is wanted; nothing found means every option was passed over; a throw means some option's text could not be read |
| QACareersPage.FirstOptionIsFirstWanted | src/test/java/automation/com/pages/QACareersPage.java:260-275 | when option i is wanted and every earlier option is readable and unwanted, the scan returns option i and its trimmed text |
| QACareersPage.PartialTactic | src/test/java/automation/com/pages/QACareersPage.java:260-275 | the partial-text tactic picks the first option whose trimmed text overlaps the target in either direction, and succeeds exactly when selecting that option's text works; a failed option read makes it fail |
| QACareersPage.ClickOptionTactic | src/test/java/automation/com/pages/QACareersPage.java:277-288 | the click tactic works exactly when the dropdown clicks, the option element for the target becomes visible in time and clicking that option works |
| QACareersPage.IndexTactic | src/test/java/automation/com/pages/QACareersPage.java:301-316 | the index tactic picks the first option containing the target and succeeds exactly when selecting it by index works; when no option contains it, it finishes without selecting anything and without raising; unreadable options raise "All dropdown selection methods failed for: " plus the target |
| QACareersPage.SelectDropdownOption | src/test/java/automation/com/pages/QACareersPage.java:246-325 | a dropdown that is not visible in time raises "Failed to select dropdown option: " plus the target; otherwise exact text, partial text, option click, JavaScript and index are tried in that order, each only after the previous failed, and the result carries the winning tactic's own choice (the partial tactic's text, the clicked option); every error carries that message |
| QACareersPage.BlankOptionOverlapsEveryTarget | src/test/java/automation/com/pages/QACareersPage.java:260-275 | a dropdown whose first option text is empty, with no exact match, selects that blank option for any target |
| QACareersPage.SilentSelectionWhenNothingMatches | src/test/java/automation/com/pages/QACareersPage.java:301-316 | when all tactics before the index tactic fail and no option contains the target, selection reports success without selecting anything |
| QACareersPage.ApplyLocationFilter | src/test/java/automation/com/pages/QACareersPage.java:183-221 | the location filter needs its dropdown visible in time; it applies the first of the location variants that can be selected, and fails exactly when none can |
| QACareersPage.ApplyDepartmentFilter | src/test/java/automation/com/pages/QACareersPage.java:224-243 | the department filter succeeds exactly when its dropdown becomes visible and selecting the department does not raise |
| QACareersPage.UnselectedDepartmentCountsAsFiltered | src/test/java/automation/com/pages/QACareersPage.java:224-243 | a department selection that selected nothing still counts as a successful filter |
| QACareersPage.FilterJobsByLocationAndDepartment | src/test/java/automation/com/pages/QACareersPage.java:143-180 | filtering fails without criteria or when the location or department key is missing; otherwise it succeeds exactly when either the location filter or the department filter applies |
| QACareersPage.JobElements | src/test/java/automation/com/pages/QACareersPage.java:328-363 | the job list is the first non-empty list among the five job locators, and when all are empty it is the last locator's result |
| QACareersPage.VerifyJobListPresent | src/test/java/automation/com/pages/QACareersPage.java:328-363 | jobs are present exactly when some job locator yields a non-empty list |
| QACareersPage.GetNumberOfJobs | src/test/java/automation/com/pages/QACareersPage.java:637-662 | the job count is positive exactly when some job locator yields a non-empty list, and then it counts such a list |
| QACareersPage.JobCountPositiveIffPresent | src/test/java/automation/com/pages/QACareersPage.java:328-363 | a positive job count and the job-list check always agree |
| QACareersPage.GetJobDetail | src/test/java/automation/com/pages/QACareersPage.java:450-458 | a job detail is read exactly when the child element is found and its text reads, and it is that text trimmed |
| QACareersPage.IstanbulTurkiyeIsRedundant | src/test/java/automation/com/pages/QACareersPage.java:423-426 | the "Istanbul, Turkiye" alternative adds nothing: the location test is "contains the expected text or contains Istanbul" |
| QACareersPage.AllJobsValid | src/test/java/automation/com/pages/QACareersPage.java:405-437 | all jobs are valid exactly when each job's position, department and location read and match the expectations |
| QACareersPage.ReadExpected | src/test/java/automation/com/pages/QACareersPage.java:368-376 | the expectations are read exactly when the details exist and carry all three keys, and then they are those values |
| QACareersPage.VerifyAllJobsContainExpectedDetails | src/test/java/automation/com/pages/QACareersPage.java:366-447 | missing expectations or no jobs mean failure; otherwise the verdict is whether every listed job is valid |
| QACareersPage.ValidDetailsImplyJobs | src/test/java/automation/com/pages/QACareersPage.java:397-400 | a successful detail check implies a positive job count |
| QACareersPage.ClickFirstViewRoleButton | src/test/java/automation/com/pages/QACareersPage.java:461-595 | the View Role click needs the first job hovered and a visible View Role button among the alternatives; the first visible one is clicked through the ladder |
| QACareersPage.VerifyRedirectToLeverPage | src/test/java/automation/com/pages/QACareersPage.java:598-634 | the redirect is verified exactly when the URL reads and contains "lever" |
| ScreenshotUtil.Sanitize | src/test/java/automation/com/utils/ScreenshotUtil.java:58 | each ASCII letter or digit is kept and every other character becomes an underscore, position for position |
| ScreenshotUtil.SanitizedCharacters | src/test/java/automation/com/utils/ScreenshotUtil.java:58 | a sanitised message holds only ASCII letters, digits and underscores |
| ScreenshotUtil.SanitizeIdempotent | src/test/java/automation/com/utils/ScreenshotUtil.java:58 | sanitising twice is sanitising once |
| ScreenshotUtil.SanitizeMerges | src/test/java/automation/com/utils/ScreenshotUtil.java:58 | messages of one length that agree wherever either has a letter or digit give the same file name |
| ScreenshotUtil.SanitizeNotInjective | src/test/java/automation/com/utils/ScreenshotUtil.java:58 | sanitising is not injective: for example, "a b" and "a-b" both give "a_b" |
| ScreenshotUtil.MessageFileName | src/test/java/automation/com/utils/ScreenshotUtil.java:57-61 | a message capture name is "Screenshot_" followed by the message with every character outside A-Z, a-z and 0-9 replaced by an underscore, position for position |
| ScreenshotUtil.FailedTestFileName | src/test/java/automation/com/utils/ScreenshotUtil.java:48-55 | a failed-test capture name is the class name, an underscore, the test name and "_FAILED" |
| ScreenshotUtil.FailedTestNamesDistinct | src/test/java/automation/com/utils/ScreenshotUtil.java:48-55 | different test methods of one class get different failed-test capture names |
| ScreenshotUtil.ZeroPad | src/test/java/automation/com/utils/ScreenshotUtil.java:29 | a padded field holds only digits and has exactly the field width when the value fits in it |
| ScreenshotUtil.ZeroPadRoundTrip | src/test/java/automation/com/utils/ScreenshotUtil.java:29 | reading a padded field back gives the value |
| ScreenshotUtil.FormatTimestamp | src/test/java/automation/com/utils/ScreenshotUtil.java:29 | a valid date and time formats as fifteen characters with the underscore at position 8 |
| ScreenshotUtil.TimestampRoundTrip | src/test/java/automation/com/utils/ScreenshotUtil.java:29 | the yyyyMMdd_HHmmss stamp is all digits apart from the underscore, and parsing it gives back the date and time |
| ScreenshotUtil.ScreenshotPath | src/test/java/automation/com/utils/ScreenshotUtil.java:30-31 | a capture path is the screenshot directory, the file name, an underscore, the stamp and ".png" |
| ScreenshotUtil.PathRoundTrip | src/test/java/automation/com/utils/ScreenshotUtil.java:30-31 | the file name and the capture time can both be recovered from the path |
| ScreenshotUtil.TakeScreenshot | src/test/java/automation/com/utils/ScreenshotUtil.java:21-46 | a successful capture returns the path; an I/O failure is swallowed and returns null; any other capture failure propagates |
| ScreenshotUtil.TakeScreenshotForFailedTest | src/test/java/automation/com/utils/ScreenshotUtil.java:48-55 | a saved failed-test capture returns the path built from the class and method name; an I/O failure returns null; any other failure propagates |
| ScreenshotUtil.TakeScreenshotWithMessage | src/test/java/automation/com/utils/ScreenshotUtil.java:57-61 | a saved labelled capture returns the path built from the sanitised message; an I/O failure returns null; any other failure propagates |
| ScreenshotUtil.CutoffIsDaysBeforeNow | src/test/java/automation/com/utils/ScreenshotUtil.java:75 | the corrected cutoff lies exactly the given number of days before now, and is never after now for a non-negative day count |
| ScreenshotUtil.CutoffAgreesWithoutOverflow | src/test/java/automation/com/utils/ScreenshotUtil.java:75 | while the day count in seconds fits in 32 bits, the cutoff as written equals the corrected one |
| ScreenshotUtil.CutoffOverflowCounterexample | src/test/java/automation/com/utils/ScreenshotUtil.java:75 | for 24856 days the cutoff as written lies about 68 years in the future, while the corrected one lies in the past |
| ScreenshotUtil.CleanOldScreenshots | src/test/java/automation/com/utils/ScreenshotUtil.java:63-91 | a missing or unlistable directory deletes nothing; otherwise deletion is attempted exactly for the regular files older than the cutoff, succeeds exactly for those whose delete works, and files are visited in listing order |
| InsiderTest.BrowserChoice | src/test/java/automation/com/tests/InsiderTest.java:26-30 | a missing or empty browser parameter falls back to the default browser; any other value is used as given |
| InsiderTest.BrowserChoiceIsStable | src/test/java/automation/com/tests/InsiderTest.java:26-30 | passing the chosen browser back in chooses it again |
| InsiderTest.Snap | src/test/java/automation/com/utils/ScreenshotUtil.java:57-61 | a labelled capture raises exactly when the camera fails with something other than an I/O error |
| InsiderTest.HomePageStep | src/test/java/automation/com/tests/InsiderTest.java:61-77 | test 1 passes exactly when the home page opens, its landmarks show and every header tab is found; a navigation failure propagates, and since page-level captures are not modelled, every other failure is an assertion |
| InsiderTest.HomePageStepObservations | src/test/java/automation/com/tests/InsiderTest.java:61-77 | a passing test 1 means the base URL opened, the title contains "Insider", the URL contains "useinsider.com", and every expected tab is some header tab's trimmed text |
| InsiderTest.CareersGate | src/test/java/automation/com/tests/InsiderTest.java:85-92 | an opened careers page passes; otherwise the gate passes exactly when the capture does not raise and the URL contains "careers" |
| InsiderTest.CareersGateIsUrlCheck | src/test/java/automation/com/tests/InsiderTest.java:85-92 | the gate passes exactly when the URL contains "careers" and either the page check passed or the capture did not raise |
| InsiderTest.TeamsCheck | src/test/java/automation/com/tests/InsiderTest.java:99-121 | the Teams check passes exactly when the Teams section is absent or lists at least one team, and otherwise fails with the "no team items" assertion |
| InsiderTest.LocationsCheck | src/test/java/automation/com/tests/InsiderTest.java:123-132 | the Locations check passes exactly when the Locations section is absent or lists at least one location, and otherwise fails with the "no location items" assertion |
| InsiderTest.LifeCheck | src/test/java/automation/com/tests/InsiderTest.java:134-149 | the Life at Insider check passes exactly when an open section has slides and images; since the step reads one session, it never fails with the carousel message |
| InsiderTest.CareersStep | src/test/java/automation/com/tests/InsiderTest.java:80-165 | test 2 passes exactly when navigation to the careers page, the careers gate and the three section checks pass and at least one of the three sections is present; a navigation failure propagates |
| InsiderTest.QAGate | src/test/java/automation/com/tests/InsiderTest.java:176-182 | the QA gate passes exactly when the page check passes or the URL contains "quality-assurance" |
| InsiderTest.QAJobsStep | src/test/java/automation/com/tests/InsiderTest.java:168-216 | test 3 passes exactly when the QA page opens, the See All button is clicked and jobs are listed; a navigation failure propagates, and since page-level captures are not modelled, every later failure is an assertion |
| InsiderTest.QAJobsStepRedundantChecks | src/test/java/automation/com/tests/InsiderTest.java:176-207 | since the step reads one session, once the QA page has opened the URL gate cannot fail, and the "No jobs found after filtering" assertion can never be the failure |
| InsiderTest.FilteringIsNotFatal | src/test/java/automation/com/tests/InsiderTest.java:194-197 | the filter criteria do not influence test 3's outcome |
| InsiderTest.JobDetailsStep | src/test/java/automation/com/tests/InsiderTest.java:219-242 | test 4 passes exactly when jobs are listed, and otherwise fails with TestNG's assertion message for "No jobs found to verify details" |
| InsiderTest.ViewRoleStep | src/test/java/automation/com/tests/InsiderTest.java:245-264 | test 5 passes exactly when the View Role button is clicked and the URL then contains "lever"; since page-level captures are not modelled, every failure is an assertion |
| InsiderTest.Settle | src/test/java/automation/com/tests/InsiderTest.java:73-76 | a step passes exactly when its body does; an assertion failure passes through the catch block untouched; any other exception is captured and rethrown, unless the capture raises, and then that fault replaces it |
| InsiderTest.Captures | src/test/java/automation/com/tests/InsiderTest.java:51-58 | a passing step captures nothing; a failing one always ends with the after-method capture under the class and method name, preceded by the labelled capture exactly when the failure is an exception |
| InsiderTest.LateStepsCaptureOnlyInHook | src/test/java/automation/com/tests/InsiderTest.java:219-264 | since page-level captures are not modelled, tests 4 and 5 can only fail by assertion, so at most the after-method capture is taken |
| InsiderTest.StepStatus | src/test/java/automation/com/tests/InsiderTest.java:267-286 | a step that runs is never reported skipped, passes exactly when its body succeeds, and the end-to-end step always passes when it runs |
| InsiderTest.Chain | src/test/java/automation/com/tests/InsiderTest.java:79 | dependent methods: the first step runs, and each later step runs exactly when the one before it passed, otherwise it is skipped |
| InsiderTest.ChainIsForward | src/test/java/automation/com/tests/InsiderTest.java:167 | a step that ran had every earlier step pass, and a step is skipped exactly when some earlier step failed |
| InsiderTest.LastPassesIffAllPassed | src/test/java/automation/com/tests/InsiderTest.java:266 | when the last step cannot fail by itself, it passes exactly when every earlier step passed |
| InsiderTest.AtMostOneFailure | src/test/java/automation/com/tests/InsiderTest.java:218 | after a failure every later step is skipped, so a run has at most one failure |
| InsiderTest.Verdicts | src/test/java/automation/com/tests/InsiderTest.java:61-286 | one outcome per test method: none is skipped, each passes exactly when its own body succeeds, and the end-to-end method always passes |
| InsiderTest.ChainPassesIffPrefixPasses | src/test/java/automation/com/tests/InsiderTest.java:79 | in a dependency chain, a step passes exactly when it and every step before it would pass |
| InsiderTest.Run | src/test/java/automation/com/tests/InsiderTest.java:61-286 | in a run of the class, test n passes exactly when the bodies of tests 1 to n all succeed, and it is skipped exactly when an earlier test failed |
| InsiderTest.RunIsForward | src/test/java/automation/com/tests/InsiderTest.java:244 | in a run of the suite, a step that ran had every earlier step pass |
| InsiderTest.EndToEndMeansAllPassed | src/test/java/automation/com/tests/InsiderTest.java:266-286 | the end-to-end test passes exactly when the five earlier tests all passed |

## Left out

- The WebDriver itself, real time and sleeps. The browser is the `Session` oracle, and each test step sees one session. State changes within a step (a click that changes what a later lookup finds) are folded into that session's answers.
- `BrowserManager` (driver creation, options, `quitDriver`, `tearDownClass`) is session plumbing outside the model.
- `JsonReader` is not part of this model. The test data it reads appears as `InsiderTest.TestData`: the tab labels as a sequence, and the filter criteria and expected details as optional string maps.
- `DebugUtil`, `debugDropdownOptions` and `debugPageStructure` only log, and logging is not modelled.
- Page-level screenshots inside page-object catch blocks (`BasePage.takeScreenshot`, which calls `ScreenshotUtil.takeScreenshotWithMessage`) are not modelled. A saved capture or one that fails with an I/O error only writes or skips a file and leaves the method's outcome unchanged. A capture that fails with anything else would raise an exception from inside the catch block, and the test method's own `catch (Exception e)` would then take its labelled capture. The rows of `InsiderTest.HomePageStep`, `InsiderTest.QAJobsStep`, `InsiderTest.ViewRoleStep` and `InsiderTest.LateStepsCaptureOnlyInHook` that say a step fails only by assertion hold under this omission.
- The unused `BasePage` helpers are left out: `sendText`, `getElementText`, `waitForElementPresent`, `waitForTextInElement`, `waitForElementInvisible`, `waitForElementsCount` and `fluentWait`. The attribute wait whose result is ignored is left out too.
- `waitForPageLoad` and `waitForJavaScript` are called on many paths, but each catches and logs every exception, and their results never decide an outcome. Their waiting is folded into the session's answers.
- `CareersPage.navigateToCareersPage`, `clickSeeAllQAJobs`, `navigateToQACareersPage` and the page getters are left out, because the test methods never call them.
- `getBrowserType` and `getTestExecutionSummary` are trivial getters, so they are left out.
- `verifyRedirectToLeverPage` switches windows and the View Role click hides and restores the navbar. Both appear only through the session's answers.
- Collapsing step order and early exit: sections and jobs are evaluated by pure functions, so "each item is checked without early exit" becomes a conjunction.
- CareersPage.VerifyTeamsSection: the per-team existence checks, the collapse probe and the See All Teams click only feed log lines. The test ignores their results, so `InsiderTest.TeamsCheck` does not call them. It does use the team names, for the size assertion.
- Text.LowerAscii: lower-cases ASCII letters only; Java's locale-sensitive lower-casing of other characters is not modelled.
- ScreenshotUtil.FormatTimestamp: fields are assumed to be in range; calendar validity (days per month, leap years) is not checked.
- ScreenshotUtil.TakeScreenshot: creating the directory and the file copy are folded into the `Capture` outcome.
- ScreenshotUtil.CleanOldScreenshots: uses the corrected cutoff (see Findings), and takes the clock reading as a parameter. An exception while listing or deleting, which the method would log and swallow, is not modelled.
- InsiderTest.Captures: lists the captures of the catch block and of the after-method hook, not the careers-gate capture. That capture is modelled in `InsiderTest.CareersGate`.
- TestNG's failure message: the suffix " expected [true] but found [false]" follows TestNG 7's `Assert.assertTrue`; other TestNG versions are not modelled.
- Separate DOM scans inside one step read the same `Session`. Claims that one check makes a later one redundant (`InsiderTest.LifeCheck`, `InsiderTest.QAJobsStepRedundantChecks`) hold for that snapshot only, not for a page that changes between the scans.
- InsiderTest.Settle: a capture that raises inside the after-method hook would be a TestNG configuration failure; it is not modelled.

## Findings

| source | as written | input that shows it | evidently intended | confidence | as-written member | corrected member |
|---|---|---|---|---|---|---|
| src/test/java/automation/com/utils/ScreenshotUtil.java:75 | `days * 24 * 60 * 60` is computed in 32-bit `int` before the `1000L` widens it, so the product wraps | `days = 24856`: 24856·86400 = 2,147,558,400 wraps to -2,147,408,896, so the cutoff becomes now + 2,147,408,896,000 ms, about 68 years in the future, and every regular file counts as old | cutoff = now − days·86,400,000 computed in 64 bits | not executed | ScreenshotUtil.CutoffOverflowCounterexample | ScreenshotUtil.CutoffIsDaysBeforeNow |

The Java code differs from its own description at a few points. The model follows the code:
- `verifyCareersPageOpened` combines its flags as `urlCorrect && (titlePresent || urlCorrect)`, so only the URL decides.
- The test catch blocks catch `Exception`, so a failed `Assert` skips the labelled capture.
- The partial-text tactic also accepts options whose text is contained in the target, including a blank option.
- The index tactic finishes silently when no option contains the target.

=== FILE: base_page.dfy ===
/** The interaction layer every page shares: waits, lookups, the click ladder, identity checks,
    navigation and the cookie banner. */
module BasePage {
  import opened Outcomes
  import opened Text
  import opened Browser
  import opened Fallback
  import Config

  // ---------------------------------------------------------------- waits

  /** The error a strict visibility wait raises when its default bound is exhausted. */
  function NotVisible(l: Locator): Error {
    Runtime("Element not visible: " + Describe(l), Some(WaitTimeout))
  }

  /** The error a strict clickability wait raises when its default bound is exhausted. */
  function NotClickable(l: Locator): Error {
    Runtime("Element not clickable: " + Describe(l), Some(WaitTimeout))
  }

  /** `waitForElementVisible(locator, timeoutSeconds)`: the element, or null when the wait runs out. */
  function VisibleWithin(s: Session, l: Locator, timeout: nat): Option<Element> {
    s.visibleWithin(l, timeout)
  }

  /** `waitForElementVisible(locator)`: waits the default bound and raises instead of returning null. */
  function WaitVisible(s: Session, l: Locator): (r: Result<Element>)
    ensures r.Ok? <==> VisibleWithin(s, l, Config.EXPLICIT_WAIT).Some?
    ensures r.Ok? ==> VisibleWithin(s, l, Config.EXPLICIT_WAIT) == Some(r.value)
    ensures r.Err? ==> r.error == NotVisible(l)
  {
    match s.visibleWithin(l, Config.EXPLICIT_WAIT)
    case Some(e) => Ok(e)
    case None => Err(NotVisible(l))
  }

  /** `waitForElementClickable(locator, timeoutSeconds)`: the element, or null when the wait runs out. */
  function ClickableWithin(s: Session, l: Locator, timeout: nat): Option<Element> {
    s.clickableWithin(l, timeout)
  }

  /** `waitForElementClickable(locator)`: waits the default bound and raises instead of returning null. */
  function WaitClickable(s: Session, l: Locator): (r: Result<Element>)
    ensures r.Ok? <==> ClickableWithin(s, l, Config.EXPLICIT_WAIT).Some?
    ensures r.Ok? ==> ClickableWithin(s, l, Config.EXPLICIT_WAIT) == Some(r.value)
    ensures r.Err? ==> r.error == NotClickable(l)
  {
    match s.clickableWithin(l, Config.EXPLICIT_WAIT)
    case Some(e) => Ok(e)
    case None => Err(NotClickable(l))
  }

  /** The strict wait raises exactly when the timed overload, given the default bound, returns null. */
  lemma StrictWaitIsTimedWaitThatRaises(s: Session, l: Locator)
    ensures WaitVisible(s, l).Err? <==> VisibleWithin(s, l, Config.EXPLICIT_WAIT) == None
    ensures WaitClickable(s, l).Err? <==> ClickableWithin(s, l, Config.EXPLICIT_WAIT) == None
  {
  }

  /** A visibility wait followed by `driver.findElement`, inside a `try` that turns any failure into null:
      how the suite resolves a locator it is prepared to do without. */
  function Resolve(s: Session, l: Locator, timeout: nat): (r: Option<Element>)
    ensures r.Some? <==> VisibleWithin(s, l, timeout).Some? && s.find(l).Found?
    ensures r.Some? ==> r.value == s.find(l).element
  {
    if VisibleWithin(s, l, timeout).Some? then
      match s.find(l)
      case Found(e) => Some(e)
      case _ => None
    else None
  }

  /** The probe of an ordered locator search: a locator paired with the element it resolves to. */
  function ResolveProbe(s: Session, timeout: nat): Locator -> Option<(Locator, Element)> {
    (l: Locator) =>
      match Resolve(s, l, timeout)
      case Some(e) => Some((l, e))
      case None => None
  }

  /** The first of `locators`, in order, that resolves within `timeout` seconds. */
  function FirstVisible(s: Session, locators: seq<Locator>, timeout: nat): (r: Option<(Locator, Element)>)
    ensures r.Some? <==> exists i :: 0 <= i < |locators| && Resolve(s, locators[i], timeout).Some?
    ensures r.Some? ==> exists i :: 0 <= i < |locators| && locators[i] == r.value.0
                          && Resolve(s, locators[i], timeout) == Some(r.value.1)
                          && forall j :: 0 <= j < i ==> Resolve(s, locators[j], timeout).None?
  {
    var run := FirstSome(locators, ResolveProbe(s, timeout));
    FirstSomeSucceedsIffSomeSucceeds(locators, ResolveProbe(s, timeout));
    if run.found.Some? then
      var i := |run.tried| - 1;
      assert locators[i] == run.tried[i];
      assert forall j :: 0 <= j < i ==> locators[j] == run.tried[j];
      run.found
    else
      run.found
  }

  // ---------------------------------------------------------------- the click ladder

  /** The probe of an action ladder on element `e`: the action itself when it returns, `None` when it throws. */
  function Attempt(s: Session, e: Element): Action -> Option<Action> {
    (a: Action) => if s.act(e, a) then Some(a) else None
  }

  /** Try `tactics` on `e` in order and stop at the first that does not throw. */
  function FirstAction(s: Session, e: Element, tactics: seq<Action>): (r: Search<Action, Action>)
    ensures |r.tried| <= |tactics| && r.tried == tactics[..|r.tried|]
    ensures forall i :: 0 <= i < |r.tried| - 1 ==> !s.act(e, r.tried[i])
    ensures r.found.Some? ==> |r.tried| > 0 && r.found.value == r.tried[|r.tried| - 1] && s.act(e, r.found.value)
    ensures r.found.None? <==> forall i :: 0 <= i < |tactics| ==> !s.act(e, tactics[i])
    ensures r.found.None? ==> r.tried == tactics
  {
    var r := FirstSome(tactics, Attempt(s, e));
    assert r.found.Some? ==> tactics[|r.tried| - 1] == r.tried[|r.tried| - 1];
    r
  }

  /** The four click tactics, in the order the suite tries them. */
  const ClickTactics: seq<Action> := [NativeClick, ScriptClick, PointerClick, DispatchedClick]

  /** The click ladder on an element already resolved. */
  function ClickLadder(s: Session, e: Element): (r: Search<Action, Action>)
    ensures r.found == Some(NativeClick) <==> s.act(e, NativeClick)
    ensures r.found == Some(ScriptClick) <==> !s.act(e, NativeClick) && s.act(e, ScriptClick)
    ensures r.found == Some(PointerClick) <==>
              !s.act(e, NativeClick) && !s.act(e, ScriptClick) && s.act(e, PointerClick)
    ensures r.found == Some(DispatchedClick) <==>
              !s.act(e, NativeClick) && !s.act(e, ScriptClick) && !s.act(e, PointerClick) && s.act(e, DispatchedClick)
    ensures r.found.None? <==>
              !s.act(e, NativeClick) && !s.act(e, ScriptClick) && !s.act(e, PointerClick) && !s.act(e, DispatchedClick)
    // the tactics tried are exactly those up to the first that returned
    ensures |r.tried| == (if s.act(e, NativeClick) then 1 else if s.act(e, ScriptClick) then 2
                          else if s.act(e, PointerClick) then 3 else 4)
  {
    var r := FirstAction(s, e, ClickTactics);
    assert r.tried == ClickTactics[..|r.tried|];
    r
  }

  /** The pattern the page classes repeat on an element they have resolved themselves: a script scroll into
      view, then the four-tactic ladder, each failure caught and reported as false. */
  function ScrollThenClick(s: Session, e: Element): (r: bool)
    ensures r <==> s.act(e, ScrollIntoView) && exists i :: 0 <= i < |ClickTactics| && s.act(e, ClickTactics[i])
  {
    if !s.act(e, ScrollIntoView) then false
    else
      var run := ClickLadder(s, e);
      assert ClickTactics == [NativeClick, ScriptClick, PointerClick, DispatchedClick];
      run.found.Some?
  }

  /** The error `clickElement` raises, quoting the locator, around its cause. */
  function ClickFailed(l: Locator, cause: Error): Error {
    Runtime("Failed to click element: " + Describe(l), Some(cause))
  }

  /** `clickElement(locator)`: a strict clickability wait, then the four-tactic ladder. Yields the tactic that worked. */
  function ClickElement(s: Session, l: Locator): (r: Result<Action>)
    ensures r.Ok? ==> ClickableWithin(s, l, Config.EXPLICIT_WAIT).Some?
                      && r.value in ClickTactics
                      && s.act(ClickableWithin(s, l, Config.EXPLICIT_WAIT).value, r.value)
    // raises only when the wait fails or all four tactics throw
    ensures r.Err? <==> ClickableWithin(s, l, Config.EXPLICIT_WAIT).None?
                        || ClickLadder(s, ClickableWithin(s, l, Config.EXPLICIT_WAIT).value).found.None?
    // the error always names the locator
    ensures r.Err? ==> r.error.Runtime? && r.error.message == "Failed to click element: " + Describe(l)
    ensures r.Err? && ClickableWithin(s, l, Config.EXPLICIT_WAIT).None? ==> r.error.cause == Some(NotClickable(l))
  {
    match WaitClickable(s, l)
    case Err(e) => Err(ClickFailed(l, e))
    case Ok(e) =>
      match ClickLadder(s, e).found
      case Some(t) => Ok(t)
      case None => Err(ClickFailed(l, ClickFailed(l, BrowserFault)))
  }

  // ---------------------------------------------------------------- soft lookups

  /** `isElementDisplayed(locator)`: never raises; false when the element is absent or any call throws. */
  function IsElementDisplayed(s: Session, l: Locator): (r: bool)
    ensures r <==> s.find(l).Found? && s.displayed(s.find(l).element) == Returns(true)
    ensures s.find(l).NoSuchElement? || s.find(l).LookupFault? ==> !r
  {
    match s.find(l)
    case Found(e) => (match s.displayed(e) case Returns(b) => b case Throws => false)
    case _ => false
  }

  /** `getElements(locator)`: the list found, possibly empty, or null when the lookup throws. */
  function GetElements(s: Session, l: Locator): (r: Option<seq<Element>>)
    ensures r.None? <==> s.findAll(l).Throws?
    ensures r.Some? ==> s.findAll(l) == Returns(r.value)
  {
    s.findAll(l).OrNull()
  }

  /** `list != null && list.size() > 0`. */
  predicate HasItems(list: Option<seq<Element>>) {
    list.Some? && |list.value| > 0
  }

  /** `list != null ? list.size() : 0`. */
  function CountOf(list: Option<seq<Element>>): (n: nat)
    ensures n > 0 <==> HasItems(list)
    ensures list.None? ==> n == 0
  {
    if list.Some? then |list.value| else 0
  }

  /** Null and empty are distinct outcomes of `getElements`, but both count as "no items". */
  lemma NullAndEmptyBothMeanNoItems(s: Session, l: Locator)
    ensures GetElements(s, l) == None ==> !HasItems(GetElements(s, l)) && CountOf(GetElements(s, l)) == 0
    ensures GetElements(s, l) == Some([]) ==> !HasItems(GetElements(s, l)) && s.findAll(l).Returns?
  {
  }

  // ---------------------------------------------------------------- identity checks

  /** `verifyPageTitle` / `verifyCurrentUrl`: succeed iff the reported string contains `expected`.
      A mismatch is a failed assertion; a browser exception propagates unchanged. */
  function VerifyContains(actual: Reply<string>, expected: string, what: string): (r: Result<()>)
    ensures r.Ok? <==> actual.Returns? && Contains(actual.value, expected)
    ensures r.Err? && actual.Returns? ==> r.error.Assertion?
    ensures actual.Throws? ==> r == Err(BrowserFault)
  {
    match actual
    case Throws => Err(BrowserFault)
    case Returns(a) =>
      if Contains(a, expected) then Ok(())
      else AssertTrue(false, what + " verification failed. Expected: " + expected + ", Actual: " + a)
  }

  function VerifyPageTitle(s: Session, expected: string): (r: Result<()>)
    ensures r.Ok? <==> s.title.Returns? && Contains(s.title.value, expected)
  {
    VerifyContains(s.title, expected, "Page title")
  }

  function VerifyCurrentUrl(s: Session, expected: string): (r: Result<()>)
    ensures r.Ok? <==> s.url.Returns? && Contains(s.url.value, expected)
  {
    VerifyContains(s.url, expected, "URL")
  }

  // ---------------------------------------------------------------- the cookie banner

  const COOKIE_BANNER: Locator := Locator(Id, "cookie-law-info-bar")
  const ACCEPT_ALL_BUTTON: Locator := Locator(Id, "wt-cli-accept-all-btn")
  const ACCEPT_ALL_BUTTON_ALTERNATIVE: Locator :=
    Locator(XPath, "//a[contains(@class, 'wt-cli-accept-all-btn') or contains(text(), 'Accept All')]")

  /** The accept button's locators, primary first. */
  const AcceptLocators: seq<Locator> := [ACCEPT_ALL_BUTTON, ACCEPT_ALL_BUTTON_ALTERNATIVE]

  /** The two click tactics tried on the accept button. */
  const AcceptTactics: seq<Action> := [NativeClick, ScriptClick]

  /** What handling the cookie banner did; it never raises. */
  datatype BannerOutcome =
    | NoBanner                                        // banner not displayed: nothing clicked
    | NoAcceptButton                                  // banner displayed, neither locator resolved: nothing clicked
    | Accepted(button: Locator, element: Element, tactic: Action)
    | AcceptFailed(button: Locator, element: Element) // both clicks threw: logged only

  /** `handleCookieBanner()`. */
  function HandleCookieBanner(s: Session): (r: BannerOutcome)
    ensures r.NoBanner? <==> !IsElementDisplayed(s, COOKIE_BANNER)
    ensures r.NoAcceptButton? <==> IsElementDisplayed(s, COOKIE_BANNER)
                                   && Resolve(s, ACCEPT_ALL_BUTTON, 5).None?
                                   && Resolve(s, ACCEPT_ALL_BUTTON_ALTERNATIVE, 5).None?
    // the id locator is preferred whenever it resolves
    ensures (r.Accepted? || r.AcceptFailed?) ==>
              IsElementDisplayed(s, COOKIE_BANNER)
              && r.button in AcceptLocators
              && (r.button == ACCEPT_ALL_BUTTON <==> Resolve(s, ACCEPT_ALL_BUTTON, 5).Some?)
              && (r.button == ACCEPT_ALL_BUTTON_ALTERNATIVE <==> Resolve(s, ACCEPT_ALL_BUTTON, 5).None?)
              && Resolve(s, r.button, 5) == Some(r.element)
    // the script click is used only after the native click throws
    ensures r.Accepted? ==> r.tactic == (if s.act(r.element, NativeClick) then NativeClick else ScriptClick)
                            && s.act(r.element, r.tactic)
    ensures r.AcceptFailed? <==> (r.AcceptFailed? || r.Accepted?) && !s.act(r.element, NativeClick) && !s.act(r.element, ScriptClick)
  {
    if !IsElementDisplayed(s, COOKIE_BANNER) then NoBanner
    else
      assert AcceptLocators[0] == ACCEPT_ALL_BUTTON && AcceptLocators[1] == ACCEPT_ALL_BUTTON_ALTERNATIVE;
      match FirstVisible(s, AcceptLocators, 5)
      case None => NoAcceptButton
      case Some((l, e)) =>
        match FirstAction(s, e, AcceptTactics).found
        case Some(t) => Accepted(l, e, t)
        case None => AcceptFailed(l, e)
  }

  /** `navigateTo(url)`: load the page, then handle the cookie banner; raises only when the load itself throws. */
  function NavigateTo(s: Session, url: string): (r: Result<BannerOutcome>)
    ensures r.Ok? <==> s.opens(url)
    ensures r.Ok? ==> r.value == HandleCookieBanner(s)
    ensures r.Err? ==> r.error == Runtime("Failed to navigate to URL: " + url, Some(BrowserFault))
  {
    if s.opens(url) then Ok(HandleCookieBanner(s))
    else Err(Runtime("Failed to navigate to URL: " + url, Some(BrowserFault)))
  }
}

=== FILE: browser.dfy ===
/** The browser, seen as an immutable observation oracle.

    Every decision the suite takes is a function of what the browser reports. A `Session` records those
    reports: what a locator resolves to, whether a wait of a given bound succeeds, what an element's text
    is, and whether one interaction returns or throws. Real polling, the DOM and script execution are
    behind these answers and are not modelled.
 */
module Browser {
  import opened Outcomes

  /** How a locator selects nodes. */
  datatype Strategy = Id | XPath | Css

  /** A Selenium `By`: a strategy and a selector; never mutated. */
  datatype Locator = Locator(strategy: Strategy, selector: string)

  /** `By.toString()`, the text the suite quotes in its error messages. */
  function Describe(l: Locator): string {
    (match l.strategy
     case Id => "By.id: "
     case XPath => "By.xpath: "
     case Css => "By.cssSelector: ") + l.selector
  }

  /** A live element handle. */
  datatype Element = Element(id: nat)

  /** One way of interacting with an element. */
  datatype Action =
    | NativeClick                    // element.click()
    | ScriptClick                    // script: arguments[0].click()
    | PointerClick                   // Actions: moveToElement(e).click().perform()
    | DispatchedClick                // script: dispatchEvent(new MouseEvent('click', {bubbles: true}))
    | PointerHover                   // Actions: moveToElement(e).perform()
    | ScriptHover                    // script: dispatchEvent(new MouseEvent('mouseover', {bubbles: true}))
    | ScrollIntoView                 // script: scrollIntoView({behavior: 'smooth', block: 'center'})
    | SelectByText(text: string)     // new Select(e).selectByVisibleText(text)
    | SelectByIndex(index: nat)      // new Select(e).selectByIndex(index)
    | ScriptSetValue(value: string)  // script: set value, dispatch a 'change' event

  /** What `driver.findElement(locator)` does. */
  datatype Lookup = Found(element: Element) | NoSuchElement | LookupFault

  /** Everything the browser reports during one scenario step. */
  datatype Session = Session(
    find: Locator -> Lookup,                            // driver.findElement
    findAll: Locator -> Reply<seq<Element>>,            // driver.findElements
    visibleWithin: (Locator, nat) -> Option<Element>,   // visibility wait with a bound in seconds
    clickableWithin: (Locator, nat) -> Option<Element>, // clickability wait with a bound in seconds
    displayed: Element -> Reply<bool>,                  // element.isDisplayed()
    text: Element -> Reply<string>,                     // element.getText(), untrimmed
    child: (Element, Locator) -> Reply<Element>,        // element.findElement(locator)
    act: (Element, Action) -> bool,                     // true when the interaction returns, false when it throws
    options: Element -> Reply<seq<Element>>,            // new Select(element).getOptions()
    title: Reply<string>,                               // driver.getTitle()
    url: Reply<string>,                                 // driver.getCurrentUrl()
    source: Reply<string>,                              // driver.getPageSource()
    opens: string -> bool                               // driver.get(url) returns normally
  )
}

=== FILE: careers_page.dfy ===
/** The Careers page: its identity check, the three content sections (Teams, Locations, Life at Insider),
    the names listed in them, and the "See all teams" expansion. */
module CareersPage {
  import opened Outcomes
  import opened Text
  import opened Browser
  import opened BasePage

  const LOCATIONS_SECTION: Locator := Locator(Id, "career-our-location")
  const LOCATIONS_TITLE: Locator := Locator(XPath, "//h3[contains(text(), 'Our Locations')]")
  const LOCATIONS_DESCRIPTION: Locator := Locator(XPath, "//p[contains(text(), '28 offices across 6 continents')]")
  const LOCATIONS_SLIDER: Locator := Locator(Id, "location-slider")
  const LOCATIONS_LIST: Locator := Locator(XPath, "//ul[@class='glide__slides']//li")
  const LOCATION_ITEMS: Locator := Locator(XPath, "//div[@class='location-info']//p")

  const TEAMS_SECTION: Locator := Locator(Id, "career-find-our-calling")
  const TEAMS_TITLE: Locator := Locator(XPath, "//h3[contains(text(), 'Find your calling')]")
  const TEAMS_CONTAINER: Locator := Locator(XPath, "//div[contains(@class, 'career-load-more')]")
  const TEAMS_ITEMS: Locator := Locator(XPath, "//div[contains(@class, 'job-item')]")
  const TEAMS_IMAGES: Locator := Locator(XPath, "//div[contains(@class, 'job-image')]//img")
  const TEAMS_TITLES: Locator := Locator(XPath, "//div[contains(@class, 'job-title')]//h3")
  const TEAMS_POSITIONS: Locator := Locator(XPath, "//div[contains(@class, 'job-open-position')]//p")
  const SEE_ALL_TEAMS_BUTTON: Locator := Locator(XPath, "//a[contains(text(), 'See all teams')]")

  const LIFE_AT_INSIDER_SECTION: Locator :=
    Locator(XPath, "//h2[contains(text(), 'Life at Insider')]/ancestor::div[contains(@class, 'elementor-widget-wrap')]")
  const LIFE_AT_INSIDER_TITLE: Locator := Locator(XPath, "//h2[contains(text(), 'Life at Insider')]")
  const LIFE_AT_INSIDER_SLIDES: Locator := Locator(XPath, "//div[@class='swiper-slide']")
  const LIFE_AT_INSIDER_IMAGES: Locator := Locator(XPath, "//div[@class='elementor-carousel-image']")

  const PAGE_TITLE: Locator :=
    Locator(XPath, "//h1[contains(text(), 'Careers') or contains(text(), 'Join') or contains(text(), 'Work') or contains(text(), 'Team')] | //h2[contains(text(), 'Careers')] | //div[contains(@class, 'title') and contains(text(), 'Careers')]")
  const CAREERS_CONTENT: Locator :=
    Locator(XPath, "//div[contains(@class, 'careers') or contains(@class, 'job') or contains(@class, 'team')] | //main | //article")

  // ---------------------------------------------------------------- identity

  /** `verifyCareersPageOpened()`. The title, content and page-source checks can only set a flag that the
      final `urlCorrect && (titlePresent || urlCorrect)` never needs, so the verdict is the URL check,
      except that a throwing URL or page-source read is caught and yields false. */
  function VerifyCareersPageOpened(s: Session): (r: bool)
    ensures r <==> s.url.Returns? && Contains(s.url.value, "careers")
                   && (IsElementDisplayed(s, PAGE_TITLE) || s.source.Returns?)
  {
    match s.url
    case Throws => false
    case Returns(url) =>
      var urlCorrect := Contains(url, "careers");
      var titlePresent := IsElementDisplayed(s, PAGE_TITLE);
      if !titlePresent then
        var careersContent := IsElementDisplayed(s, CAREERS_CONTENT);
        match s.source
        case Throws => false
        case Returns(source) =>
          var lower := LowerAscii(source);
          var found := careersContent || Contains(lower, "careers") || Contains(lower, "join our team")
                       || Contains(lower, "work with us");
          urlCorrect && (found || urlCorrect)
      else
        urlCorrect && (titlePresent || urlCorrect)
  }

  /** Whenever nothing throws, the page counts as opened exactly when the URL mentions careers: the title,
      the content block and the page source never change the verdict. */
  lemma CareersOpenedIsUrlCheck(s: Session)
    requires s.url.Returns? && s.source.Returns?
    ensures VerifyCareersPageOpened(s) <==> Contains(s.url.value, "careers")
  {
  }

  // ---------------------------------------------------------------- required sections

  /** The section names with a dedicated locator, in lower case. */
  const FixedSections: seq<string> := ["locations", "teams", "life at insider"]

  /** The locator built for a section name without a dedicated one. */
  function GeneratedSectionLocator(name: string): Locator {
    Locator(XPath, "//section[contains(text(), '" + name + "') or contains(@class, '"
                   + RemoveSpaces(LowerAscii(name)) + "')]")
  }

  /** The section-name switch: dispatched on the lower-cased name. */
  function SectionLocator(name: string): Locator {
    var key := LowerAscii(name);
    if key == "locations" then LOCATIONS_SECTION
    else if key == "teams" then TEAMS_SECTION
    else if key == "life at insider" then LIFE_AT_INSIDER_SECTION
    else GeneratedSectionLocator(name)
  }

  /** The three known names are recognised in any ASCII case: a name maps to the same locator as its
      lower-case form. */
  lemma SectionDispatchIgnoresCase(name: string)
    requires LowerAscii(name) in FixedSections
    ensures SectionLocator(name) == SectionLocator(LowerAscii(name))
    ensures SectionLocator(name) in {LOCATIONS_SECTION, TEAMS_SECTION, LIFE_AT_INSIDER_SECTION}
  {
    LowerAsciiIdempotent(name);
  }

  /** `verifyRequiredSections()`: every listed section displayed; an empty list passes. */
  function VerifyRequiredSections(s: Session, names: seq<string>): (r: bool)
    ensures r <==> forall i :: 0 <= i < |names| ==> IsElementDisplayed(s, SectionLocator(names[i]))
  {
    if names == [] then true
    else
      var sectionPresent := IsElementDisplayed(s, SectionLocator(names[0]));
      var others := VerifyRequiredSections(s, names[1..]);
      assert forall i :: 1 <= i < |names| ==> names[i] == names[1..][i - 1];
      sectionPresent && others
  }

  /** Listing more sections can only make the check harder. */
  lemma {:induction false} RequiredSectionsAntitone(s: Session, names: seq<string>, more: seq<string>)
    requires VerifyRequiredSections(s, names + more)
    ensures VerifyRequiredSections(s, names) && VerifyRequiredSections(s, more)
  {
    assert forall i :: 0 <= i < |names| ==> (names + more)[i] == names[i];
    assert forall i :: 0 <= i < |more| ==> (names + more)[|names| + i] == more[i];
  }

  // ---------------------------------------------------------------- the three content sections

  /** The shape every section check shares: a container (whose absence ends the check), a heading, and
      content lists of which any one (or, for `allContent`, every one) must hold items. */
  datatype SectionSpec = SectionSpec(container: Locator, heading: Locator, content: seq<Locator>, allContent: bool)

  /** Some list holds items. */
  function AnyHasItems(s: Session, lists: seq<Locator>): (r: bool)
    ensures r <==> exists i :: 0 <= i < |lists| && HasItems(GetElements(s, lists[i]))
  {
    if lists == [] then false
    else
      assert forall i :: 1 <= i < |lists| ==> lists[i] == lists[1..][i - 1];
      HasItems(GetElements(s, lists[0])) || AnyHasItems(s, lists[1..])
  }

  /** Every list holds items. */
  function AllHaveItems(s: Session, lists: seq<Locator>): (r: bool)
    ensures r <==> forall i :: 0 <= i < |lists| ==> HasItems(GetElements(s, lists[i]))
  {
    if lists == [] then true
    else
      assert forall i :: 1 <= i < |lists| ==> lists[i] == lists[1..][i - 1];
      HasItems(GetElements(s, lists[0])) && AllHaveItems(s, lists[1..])
  }

  /** A section check: false at once without the container, else container and heading and content. */
  function SectionOpen(s: Session, spec: SectionSpec): (r: bool)
    ensures !IsElementDisplayed(s, spec.container) ==> !r
    ensures r ==> IsElementDisplayed(s, spec.heading)
    ensures r <==> IsElementDisplayed(s, spec.container) && IsElementDisplayed(s, spec.heading)
                   && (if spec.allContent
                       then forall i :: 0 <= i < |spec.content| ==> HasItems(GetElements(s, spec.content[i]))
                       else exists i :: 0 <= i < |spec.content| && HasItems(GetElements(s, spec.content[i])))
  {
    var sectionPresent := IsElementDisplayed(s, spec.container);
    if !sectionPresent then false
    else
      var titlePresent := IsElementDisplayed(s, spec.heading);
      var content := if spec.allContent then AllHaveItems(s, spec.content) else AnyHasItems(s, spec.content);
      sectionPresent && titlePresent && content
  }

  const LocationsSpec: SectionSpec := SectionSpec(LOCATIONS_SECTION, LOCATIONS_TITLE, [LOCATION_ITEMS, LOCATIONS_LIST], false)
  const TeamsSpec: SectionSpec := SectionSpec(TEAMS_SECTION, TEAMS_TITLE, [TEAMS_ITEMS, TEAMS_TITLES], true)
  const LifeSpec: SectionSpec :=
    SectionSpec(LIFE_AT_INSIDER_SECTION, LIFE_AT_INSIDER_TITLE, [LIFE_AT_INSIDER_SLIDES, LIFE_AT_INSIDER_IMAGES], false)

  /** `verifyLocationsSection()`: the description and slider flags are computed but never used. */
  function VerifyLocationsSection(s: Session): (r: bool)
    ensures r <==> IsElementDisplayed(s, LOCATIONS_SECTION) && IsElementDisplayed(s, LOCATIONS_TITLE)
                   && (HasItems(GetElements(s, LOCATION_ITEMS)) || HasItems(GetElements(s, LOCATIONS_LIST)))
  {
    assert LocationsSpec.content[0] == LOCATION_ITEMS && LocationsSpec.content[1] == LOCATIONS_LIST;
    SectionOpen(s, LocationsSpec)
  }

  /** `verifyTeamsSection()`: the container, images, positions and "See all teams" flags do not count. */
  function VerifyTeamsSection(s: Session): (r: bool)
    ensures r <==> IsElementDisplayed(s, TEAMS_SECTION) && IsElementDisplayed(s, TEAMS_TITLE)
                   && HasItems(GetElements(s, TEAMS_ITEMS)) && HasItems(GetElements(s, TEAMS_TITLES))
  {
    assert TeamsSpec.content[0] == TEAMS_ITEMS && TeamsSpec.content[1] == TEAMS_TITLES;
    SectionOpen(s, TeamsSpec)
  }

  /** `verifyLifeAtInsiderSection()`: the description, carousel and swiper flags are ignored. */
  function VerifyLifeAtInsiderSection(s: Session): (r: bool)
    ensures r <==> IsElementDisplayed(s, LIFE_AT_INSIDER_SECTION) && IsElementDisplayed(s, LIFE_AT_INSIDER_TITLE)
                   && (HasItems(GetElements(s, LIFE_AT_INSIDER_SLIDES)) || HasItems(GetElements(s, LIFE_AT_INSIDER_IMAGES)))
  {
    assert LifeSpec.content[0] == LIFE_AT_INSIDER_SLIDES && LifeSpec.content[1] == LIFE_AT_INSIDER_IMAGES;
    SectionOpen(s, LifeSpec)
  }

  /** The displayed flags and the item lists the three section checks count. */
  const CountedFlags: set<Locator> :=
    {LOCATIONS_SECTION, LOCATIONS_TITLE, TEAMS_SECTION, TEAMS_TITLE, LIFE_AT_INSIDER_SECTION, LIFE_AT_INSIDER_TITLE}
  const CountedLists: set<Locator> :=
    {LOCATION_ITEMS, LOCATIONS_LIST, TEAMS_ITEMS, TEAMS_TITLES, LIFE_AT_INSIDER_SLIDES, LIFE_AT_INSIDER_IMAGES}

  /** The decorations the section checks compute and ignore cannot change a verdict: two pages that agree
      on the counted lookups get the same verdicts, whatever their descriptions, sliders, carousels,
      containers, images, positions or "See all teams" button look like. */
  lemma SectionsIgnoreDecorations(s: Session, t: Session)
    requires forall l :: l in CountedFlags ==> IsElementDisplayed(s, l) == IsElementDisplayed(t, l)
    requires forall l :: l in CountedLists ==> GetElements(s, l) == GetElements(t, l)
    ensures VerifyLocationsSection(s) == VerifyLocationsSection(t)
    ensures VerifyTeamsSection(s) == VerifyTeamsSection(t)
    ensures VerifyLifeAtInsiderSection(s) == VerifyLifeAtInsiderSection(t)
  {
  }

  // ---------------------------------------------------------------- names listed in a section

  /** The entries of `names` that are not empty, in their original order. */
  function NonBlank(names: seq<string>): (r: seq<string>)
    ensures |r| <= |names|
    ensures forall x :: x in r <==> x in names && x != []
  {
    if names == [] then []
    else (if names[0] == [] then [] else [names[0]]) + NonBlank(names[1..])
  }

  /** The trimmed text of every element, one per element, in page order. */
  function TrimmedTexts(s: Session, elements: seq<Element>): (r: seq<string>)
    requires forall j :: 0 <= j < |elements| ==> s.text(elements[j]).Returns?
    ensures |r| == |elements|
    ensures forall j :: 0 <= j < |elements| ==> r[j] == Trim(s.text(elements[j]).value)
  {
    seq(|elements|, j requires 0 <= j < |elements| => Trim(s.text(elements[j]).value))
  }

  /** The trimmed, non-empty texts of `elements` in page order; throws when any text read throws. */
  function TrimmedNames(s: Session, elements: seq<Element>): (r: Reply<seq<string>>)
    ensures r.Returns? <==> forall j :: 0 <= j < |elements| ==> s.text(elements[j]).Returns?
    ensures r.Returns? ==> r.value == NonBlank(TrimmedTexts(s, elements))
    ensures r.Returns? ==> |r.value| <= |elements|
    ensures r.Returns? ==> forall x :: x in r.value <==>
              x != [] && exists j :: 0 <= j < |elements| && Trim(s.text(elements[j]).value) == x
  {
    if elements == [] then Returns([])
    else
      match s.text(elements[0])
      case Throws => Throws
      case Returns(t) =>
        var rest := TrimmedNames(s, elements[1..]);
        assert forall j :: 1 <= j < |elements| ==> elements[j] == elements[1..][j - 1];
        match rest
        case Throws => Throws
        case Returns(names) =>
          var texts := TrimmedTexts(s, elements);
          assert texts[0] == Trim(t) && texts[1..] == TrimmedTexts(s, elements[1..]);
          assert forall x :: x in texts <==> exists j :: 0 <= j < |elements| && Trim(s.text(elements[j]).value) == x;
          Returns((if Trim(t) == [] then [] else [Trim(t)]) + names)
  }

  /** With every text non-blank, the names are exactly the trimmed texts, one per element, in page order. */
  lemma {:induction false} NamesKeepPageOrder(s: Session, elements: seq<Element>)
    requires forall j :: 0 <= j < |elements| ==> s.text(elements[j]).Returns? && Trim(s.text(elements[j]).value) != []
    ensures TrimmedNames(s, elements).Returns?
    ensures |TrimmedNames(s, elements).value| == |elements|
    ensures forall j :: 0 <= j < |elements| ==> TrimmedNames(s, elements).value[j] == Trim(s.text(elements[j]).value)
  {
    if elements != [] {
      var tail := elements[1..];
      assert forall j :: 0 <= j < |tail| ==> tail[j] == elements[j + 1];
      NamesKeepPageOrder(s, tail);
      var names := TrimmedNames(s, tail).value;
      assert TrimmedNames(s, elements) == Returns([Trim(s.text(elements[0]).value)] + names);
      forall j | 0 <= j < |elements|
        ensures TrimmedNames(s, elements).value[j] == Trim(s.text(elements[j]).value)
      {
        if j > 0 {
          assert TrimmedNames(s, elements).value[j] == names[j - 1];
        }
      }
    }
  }

  /** `getLocationNames()` / `getTeamNames()`: the names under `l`, or the empty list when the lookup
      yields null or any text read throws. */
  function NamesUnder(s: Session, l: Locator): (r: seq<string>)
    ensures GetElements(s, l).None? ==> r == []
    ensures forall x :: x in r ==> x != [] && !IsTrimmable(x[0]) && !IsTrimmable(x[|x| - 1])
    ensures GetElements(s, l).Some? && TrimmedNames(s, GetElements(s, l).value).Returns? ==>
              r == TrimmedNames(s, GetElements(s, l).value).value
    ensures GetElements(s, l).Some? && TrimmedNames(s, GetElements(s, l).value).Throws? ==> r == []
  {
    match GetElements(s, l)
    case None => []
    case Some(elements) =>
      match TrimmedNames(s, elements)
      case Throws => []
      case Returns(names) =>
        NamesAreTrimmed(s, elements);
        names
  }

  /** Every collected name is non-blank and already trimmed. */
  lemma NamesAreTrimmed(s: Session, elements: seq<Element>)
    requires TrimmedNames(s, elements).Returns?
    ensures forall x :: x in TrimmedNames(s, elements).value ==> x != [] && !IsTrimmable(x[0]) && !IsTrimmable(x[|x| - 1])
  {
    forall x | x in TrimmedNames(s, elements).value
      ensures x != [] && !IsTrimmable(x[0]) && !IsTrimmable(x[|x| - 1])
    {
      var j :| 0 <= j < |elements| && Trim(s.text(elements[j]).value) == x;
    }
  }

  function GetLocationNames(s: Session): seq<string> {
    NamesUnder(s, LOCATION_ITEMS)
  }

  function GetTeamNames(s: Session): seq<string> {
    NamesUnder(s, TEAMS_TITLES)
  }

  /** `verifyLocationExists(name)` / `verifyTeamExists(name)`: exact membership in the listed names. When
      every text can be read this is "some element's trimmed text is `name`", and a blank or untrimmed
      `name` is never found. */
  function NameExists(s: Session, l: Locator, name: string): (r: bool)
    ensures r ==> name != [] && !IsTrimmable(name[0]) && !IsTrimmable(name[|name| - 1])
    // a failing list lookup, or a text read that throws (caught by the method), answers false
    ensures GetElements(s, l).None? ==> !r
    ensures GetElements(s, l).Some? && TrimmedNames(s, GetElements(s, l).value).Throws? ==> !r
    ensures GetElements(s, l).Some?
            && (forall j :: 0 <= j < |GetElements(s, l).value| ==> s.text(GetElements(s, l).value[j]).Returns?) ==>
              (r <==> name != [] && exists j :: 0 <= j < |GetElements(s, l).value|
                                                && Trim(s.text(GetElements(s, l).value[j]).value) == name)
  {
    name in NamesUnder(s, l)
  }

  function VerifyLocationExists(s: Session, name: string): bool {
    NameExists(s, LOCATION_ITEMS, name)
  }

  function VerifyTeamExists(s: Session, name: string): bool {
    NameExists(s, TEAMS_TITLES, name)
  }

  // ---------------------------------------------------------------- the Life at Insider carousel

  /** `getLifeAtInsiderSlidesCount()`: the number of slides, or 0 when the lookup fails. */
  function GetLifeAtInsiderSlidesCount(s: Session): (n: nat)
    ensures n > 0 <==> HasItems(GetElements(s, LIFE_AT_INSIDER_SLIDES))
    ensures s.findAll(LIFE_AT_INSIDER_SLIDES).Throws? ==> n == 0
    ensures s.findAll(LIFE_AT_INSIDER_SLIDES).Returns? ==> n == |s.findAll(LIFE_AT_INSIDER_SLIDES).value|
  {
    CountOf(GetElements(s, LIFE_AT_INSIDER_SLIDES))
  }

  /** `getLifeAtInsiderImagesCount()`: the number of images, or 0 when the lookup fails. */
  function GetLifeAtInsiderImagesCount(s: Session): (n: nat)
    ensures n > 0 <==> HasItems(GetElements(s, LIFE_AT_INSIDER_IMAGES))
    ensures s.findAll(LIFE_AT_INSIDER_IMAGES).Throws? ==> n == 0
    ensures s.findAll(LIFE_AT_INSIDER_IMAGES).Returns? ==> n == |s.findAll(LIFE_AT_INSIDER_IMAGES).value|
  {
    CountOf(GetElements(s, LIFE_AT_INSIDER_IMAGES))
  }

  /** `verifyLifeAtInsiderCarouselFunctional()`: both slides and images present. */
  function VerifyLifeAtInsiderCarouselFunctional(s: Session): (r: bool)
    ensures r <==> HasItems(GetElements(s, LIFE_AT_INSIDER_SLIDES)) && HasItems(GetElements(s, LIFE_AT_INSIDER_IMAGES))
  {
    GetLifeAtInsiderSlidesCount(s) > 0 && GetLifeAtInsiderImagesCount(s) > 0
  }

  /** The carousel check is stricter than the section's content condition (slides AND images against slides
      OR images): with the container and heading displayed, a functional carousel means an open section. */
  lemma CarouselImpliesLifeSection(s: Session)
    requires IsElementDisplayed(s, LIFE_AT_INSIDER_SECTION) && IsElementDisplayed(s, LIFE_AT_INSIDER_TITLE)
    requires VerifyLifeAtInsiderCarouselFunctional(s)
    ensures VerifyLifeAtInsiderSection(s)
  {
  }

  // ---------------------------------------------------------------- "See all teams"

  /** `isTeamsSectionCollapsed()`: the "See all teams" button is displayed. */
  function IsTeamsSectionCollapsed(s: Session): bool {
    IsElementDisplayed(s, SEE_ALL_TEAMS_BUTTON)
  }

  /** `clickSeeAllTeamsButton()`: false without clicking when the button is not displayed; otherwise the
      button is found, scrolled into view and clicked with the four-tactic ladder. Every failure is caught. */
  function ClickSeeAllTeamsButton(s: Session): (r: bool)
    ensures !IsTeamsSectionCollapsed(s) ==> !r
    ensures IsTeamsSectionCollapsed(s) ==>
              var button := s.find(SEE_ALL_TEAMS_BUTTON).element;
              (r <==> s.act(button, ScrollIntoView) && exists i :: 0 <= i < |ClickTactics| && s.act(button, ClickTactics[i]))
  {
    if !IsElementDisplayed(s, SEE_ALL_TEAMS_BUTTON) then false
    else ScrollThenClick(s, s.find(SEE_ALL_TEAMS_BUTTON).element)
  }
}

=== FILE: config.dfy ===
/** The suite's fixed configuration values. */
module Config {

  const BASE_URL: string := "https://useinsider.com/"
  const CAREERS_URL: string := "https://useinsider.com/careers/"
  const QA_CAREERS_URL: string := "https://useinsider.com/careers/quality-assurance/"

  const DEFAULT_BROWSER: string := "chrome"

  /** Wait bounds, in seconds. */
  const IMPLICIT_WAIT: nat := 10
  const EXPLICIT_WAIT: nat := 20
  const PAGE_LOAD_TIMEOUT: nat := 30
  const SHORT_WAIT: nat := 5
  const MEDIUM_WAIT: nat := 10

  const SCREENSHOT_PATH: string := "src/test/resources/screenshots/"
}

=== FILE: fallback.dfy ===
/** Ordered fallback: try alternatives in a fixed order and stop at the first one that works.

    Every ladder of the suite (click tactics, hover tactics, dropdown options, alternative locators) is
    an instance: `probe` says what trying one alternative yields, `None` standing for "threw" or "found
    nothing". The search records which alternatives it tried, so that "stops at the first success" and
    "nothing after it is evaluated" can be stated.
 */
module Fallback {
  import opened Outcomes

  /** The alternatives tried, in order, and what the last of them yielded. */
  datatype Search<T, U> = Search(tried: seq<T>, found: Option<U>)

  function FirstSome<T, U>(candidates: seq<T>, probe: T -> Option<U>): (r: Search<T, U>)
    // the alternatives tried are a prefix of the list, in list order
    ensures |r.tried| <= |candidates| && r.tried == candidates[..|r.tried|]
    // every alternative before the last one tried failed
    ensures forall i :: 0 <= i < |r.tried| - 1 ==> probe(r.tried[i]).None?
    // a success is the yield of the last alternative tried
    ensures r.found.Some? ==> |r.tried| > 0 && probe(r.tried[|r.tried| - 1]) == r.found
    // no success means every alternative was tried and every one failed
    ensures r.found.None? ==> r.tried == candidates && forall i :: 0 <= i < |candidates| ==> probe(candidates[i]).None?
  {
    if candidates == [] then Search([], None)
    else
      match probe(candidates[0])
      case Some(u) => Search([candidates[0]], Some(u))
      case None =>
        var rest := FirstSome(candidates[1..], probe);
        Search([candidates[0]] + rest.tried, rest.found)
  }

  /** The first candidate `accept` takes: the search over a yes/no probe. */
  function FirstAccepted<T>(candidates: seq<T>, accept: T -> bool): (r: Option<T>)
    ensures r.Some? ==> exists i :: 0 <= i < |candidates| && candidates[i] == r.value && accept(r.value)
                                    && forall j :: 0 <= j < i ==> !accept(candidates[j])
    ensures r.None? <==> forall i :: 0 <= i < |candidates| ==> !accept(candidates[i])
  {
    var probe := (c: T) => if accept(c) then Some(c) else None;
    var run := FirstSome(candidates, probe);
    if run.found.Some? then
      var i := |run.tried| - 1;
      assert candidates[i] == run.tried[i];
      assert forall j :: 0 <= j < i ==> candidates[j] == run.tried[j];
      run.found
    else
      run.found
  }

  /** The search succeeds exactly when some alternative succeeds. */
  lemma FirstSomeSucceedsIffSomeSucceeds<T, U>(candidates: seq<T>, probe: T -> Option<U>)
    ensures FirstSome(candidates, probe).found.Some? <==> exists i :: 0 <= i < |candidates| && probe(candidates[i]).Some?
  {
    var r := FirstSome(candidates, probe);
    if r.found.Some? {
      var k := |r.tried| - 1;
      assert candidates[k] == r.tried[k];
    }
  }

  /** The search settles on the earliest successful alternative, after trying exactly the ones before it. */
  lemma {:induction false} FirstSomeIsEarliest<T, U>(candidates: seq<T>, probe: T -> Option<U>, i: nat)
    requires i < |candidates| && probe(candidates[i]).Some?
    requires forall j :: 0 <= j < i ==> probe(candidates[j]).None?
    ensures FirstSome(candidates, probe).tried == candidates[..i + 1]
    ensures FirstSome(candidates, probe).found == probe(candidates[i])
  {
    if i > 0 {
      assert probe(candidates[0]).None?;
      FirstSomeIsEarliest(candidates[1..], probe, i - 1);
      assert candidates[..i + 1] == [candidates[0]] + candidates[1..][..i];
    }
  }

  /** Nothing after the stopping point is evaluated: two probes that agree on the alternatives tried yield the same search. */
  lemma {:induction false} FirstSomeReadsOnlyTried<T, U>(candidates: seq<T>, probe: T -> Option<U>, other: T -> Option<U>)
    requires forall i :: 0 <= i < |FirstSome(candidates, probe).tried| ==>
               probe(FirstSome(candidates, probe).tried[i]) == other(FirstSome(candidates, probe).tried[i])
    ensures FirstSome(candidates, other) == FirstSome(candidates, probe)
  {
    if candidates != [] {
      var r := FirstSome(candidates, probe);
      assert r.tried[0] == candidates[0];
      if probe(candidates[0]).None? {
        var rest := FirstSome(candidates[1..], probe);
        assert r.tried == [candidates[0]] + rest.tried;
        forall i | 0 <= i < |rest.tried|
          ensures probe(rest.tried[i]) == other(rest.tried[i])
        {
          assert rest.tried[i] == r.tried[i + 1];
        }
        FirstSomeReadsOnlyTried(candidates[1..], probe, other);
      }
    }
  }
}

=== FILE: home_page.dfy ===
/** The landing page: its identity check, its header tabs, and the way to the Careers page through the
    Company menu. */
module HomePage {
  import opened Outcomes
  import opened Text
  import opened Browser
  import opened Fallback
  import opened BasePage
  import Config

  const COMPANY_MENU: Locator := Locator(XPath, "//a[contains(text(), 'Company')]")
  const CAREERS_LINK: Locator := Locator(XPath, "//a[contains(text(), 'Careers') and contains(@href, 'careers')]")
  const CAREERS_LINK_ALTERNATIVE: Locator := Locator(XPath, "//a[text()='Careers']")
  const CAREERS_LINK_DROPDOWN: Locator :=
    Locator(XPath, "//a[contains(@class, 'dropdown-sub') and contains(text(), 'Careers')]")
  const CAREERS_LINK_SIMPLE: Locator := Locator(XPath, "//a[contains(text(), 'Careers')]")
  const INSIDER_LOGO: Locator := Locator(XPath, "//img[contains(@alt, 'Insider') or contains(@src, 'insider')]")
  const MAIN_NAVIGATION: Locator := Locator(XPath, "//nav[contains(@class, 'navbar') or contains(@class, 'navigation')]")
  const HEADER_TABS: Locator := Locator(XPath, "//ul[contains(@class, 'navbar-nav') or contains(@class, 'nav-menu')]//a")
  const COMPANY_DROPDOWN: Locator := Locator(XPath, "//div[contains(@class, 'new-menu-dropdown-layout-6-mid-container')]")

  /** `navigateToHomePage()`: load the base URL, then require the title and the URL to name the site. */
  function NavigateToHomePage(s: Session): (r: Result<()>)
    ensures r.Ok? <==> s.opens(Config.BASE_URL)
                       && s.title.Returns? && Contains(s.title.value, "Insider")
                       && s.url.Returns? && Contains(s.url.value, "useinsider.com")
    // a failed load is reported before any identity check
    ensures !s.opens(Config.BASE_URL) ==> r == Err(Runtime("Failed to navigate to URL: " + Config.BASE_URL, Some(BrowserFault)))
  {
    match NavigateTo(s, Config.BASE_URL)
    case Err(e) => Err(e)
    case Ok(_) =>
      match VerifyPageTitle(s, "Insider")
      case Err(e) => Err(e)
      case Ok(_) => VerifyCurrentUrl(s, "useinsider.com")
  }

  /** The three landmarks whose presence identifies the landing page. */
  const HomeLandmarks: seq<Locator> := [INSIDER_LOGO, MAIN_NAVIGATION, COMPANY_MENU]

  /** `verifyHomePageOpened()`: logo AND navigation AND Company menu. */
  function VerifyHomePageOpened(s: Session): (r: bool)
    ensures r <==> forall i :: 0 <= i < |HomeLandmarks| ==> IsElementDisplayed(s, HomeLandmarks[i])
  {
    var logoPresent := IsElementDisplayed(s, INSIDER_LOGO);
    var navigationPresent := IsElementDisplayed(s, MAIN_NAVIGATION);
    var companyMenuPresent := IsElementDisplayed(s, COMPANY_MENU);
    assert HomeLandmarks[0] == INSIDER_LOGO && HomeLandmarks[1] == MAIN_NAVIGATION && HomeLandmarks[2] == COMPANY_MENU;
    logoPresent && navigationPresent && companyMenuPresent
  }

  // ---------------------------------------------------------------- header tabs

  /** A tab the scan reads and passes over: its text reads, and trimmed it is not `wanted`. */
  predicate PassedTab(s: Session, tab: Element, wanted: string) {
    s.text(tab).Returns? && Trim(s.text(tab).value) != wanted
  }

  /** Every tab before position `k` was read and passed over. */
  predicate PassedBefore(s: Session, tabs: seq<Element>, wanted: string, k: int) {
    forall j :: 0 <= j < k && j < |tabs| ==> PassedTab(s, tabs[j], wanted)
  }

  /** Tab `k` is where the scan stops with a match: it reads, trims to `wanted`, and every earlier tab was passed. */
  predicate FirstMatchAt(s: Session, tabs: seq<Element>, wanted: string, k: int) {
    && 0 <= k < |tabs|
    && s.text(tabs[k]).Returns? && Trim(s.text(tabs[k]).value) == wanted
    && PassedBefore(s, tabs, wanted, k)
  }

  /** Tab `k` is where the scan stops with an exception: its text read throws and every earlier tab was passed. */
  predicate ThrowsAt(s: Session, tabs: seq<Element>, wanted: string, k: int) {
    && 0 <= k < |tabs|
    && s.text(tabs[k]).Throws?
    && PassedBefore(s, tabs, wanted, k)
  }

  /** The inner loop of the tab check: scan the tabs in order until one's trimmed text equals `wanted`.
      Throws when reading a tab's text throws before a match is found; tabs after a match are never read. */
  function TabMatch(s: Session, tabs: seq<Element>, wanted: string): (r: Reply<bool>)
    ensures r == Returns(true) ==>
              exists j :: 0 <= j < |tabs| && s.text(tabs[j]).Returns? && Trim(s.text(tabs[j]).value) == wanted
    ensures r == Returns(false) ==>
              forall j :: 0 <= j < |tabs| ==> s.text(tabs[j]).Returns? && Trim(s.text(tabs[j]).value) != wanted
    ensures forall k :: FirstMatchAt(s, tabs, wanted, k) ==> r == Returns(true)
    ensures r.Throws? <==> exists k :: ThrowsAt(s, tabs, wanted, k)
  {
    if tabs == [] then Returns(false)
    else
      match s.text(tabs[0])
      case Throws =>
        assert ThrowsAt(s, tabs, wanted, 0);
        Throws
      case Returns(t) =>
        if Trim(t) == wanted then Returns(true)
        else
          var rest := TabMatch(s, tabs[1..], wanted);
          assert forall j :: 1 <= j < |tabs| ==> tabs[j] == tabs[1..][j - 1];
          TabScanShift(s, tabs, wanted);
          rest
  }

  /** Past a tab that is passed over, the stopping points of the scan move down by one. */
  lemma TabScanShift(s: Session, tabs: seq<Element>, wanted: string)
    requires tabs != [] && PassedTab(s, tabs[0], wanted)
    ensures forall k :: FirstMatchAt(s, tabs, wanted, k) ==> FirstMatchAt(s, tabs[1..], wanted, k - 1)
    ensures (exists k :: ThrowsAt(s, tabs, wanted, k)) <==> exists k :: ThrowsAt(s, tabs[1..], wanted, k)
  {
    forall k | FirstMatchAt(s, tabs, wanted, k)
      ensures FirstMatchAt(s, tabs[1..], wanted, k - 1)
    {
      assert k != 0;
      assert forall j :: 0 <= j < k - 1 ==> tabs[1..][j] == tabs[j + 1];
    }
    if k :| ThrowsAt(s, tabs, wanted, k) {
      assert k != 0;
      assert forall j :: 0 <= j < k - 1 ==> tabs[1..][j] == tabs[j + 1];
      assert ThrowsAt(s, tabs[1..], wanted, k - 1);
    }
    if k :| ThrowsAt(s, tabs[1..], wanted, k) {
      assert forall j :: 1 <= j < k + 1 ==> tabs[j] == tabs[1..][j - 1];
      assert ThrowsAt(s, tabs, wanted, k + 1);
    }
  }

  /** The outer loop of the tab check: every expected label is looked for; an exception aborts the check. */
  function AllTabsFound(s: Session, tabs: seq<Element>, expected: seq<string>): (r: Reply<bool>)
    ensures r == Returns(true) <==> forall i :: 0 <= i < |expected| ==> TabMatch(s, tabs, expected[i]) == Returns(true)
    ensures r.Throws? <==> exists i :: 0 <= i < |expected| && TabMatch(s, tabs, expected[i]).Throws?
  {
    if expected == [] then Returns(true)
    else
      var first := TabMatch(s, tabs, expected[0]);
      var rest := AllTabsFound(s, tabs, expected[1..]);
      assert forall i :: 1 <= i < |expected| ==> expected[i] == expected[1..][i - 1];
      match first
      case Throws => Throws
      case Returns(found) =>
        match rest
        case Throws => Throws
        case Returns(others) => Returns(found && others)
  }

  /** `verifyHeaderNavigationTabs()`: false without tabs; otherwise every expected label must equal some
      trimmed tab text. Any exception makes it false. */
  function VerifyHeaderNavigationTabs(s: Session, expected: seq<string>): (r: bool)
    ensures !HasItems(GetElements(s, HEADER_TABS)) ==> !r
    ensures HasItems(GetElements(s, HEADER_TABS)) ==> (r <==> AllTabsFound(s, GetElements(s, HEADER_TABS).value, expected) == Returns(true))
    ensures r ==> forall i :: 0 <= i < |expected| ==>
                    exists j :: 0 <= j < |GetElements(s, HEADER_TABS).value|
                                && s.text(GetElements(s, HEADER_TABS).value[j]).Returns?
                                && Trim(s.text(GetElements(s, HEADER_TABS).value[j]).value) == expected[i]
  {
    match GetElements(s, HEADER_TABS)
    case None => false
    case Some(tabs) =>
      if tabs == [] then false
      else
        var all := AllTabsFound(s, tabs, expected);
        assert all == Returns(true) ==> forall i :: 0 <= i < |expected| ==> TabMatch(s, tabs, expected[i]) == Returns(true);
        all == Returns(true)
  }

  /** With every text readable, the inner scan never throws. */
  lemma {:induction false} TabMatchReadable(s: Session, tabs: seq<Element>, wanted: string)
    requires forall j :: 0 <= j < |tabs| ==> s.text(tabs[j]).Returns?
    ensures TabMatch(s, tabs, wanted).Returns?
  {
    if tabs != [] && Trim(s.text(tabs[0]).value) != wanted {
      assert forall j :: 0 <= j < |tabs[1..]| ==> tabs[1..][j] == tabs[j + 1];
      TabMatchReadable(s, tabs[1..], wanted);
    }
  }

  /** Tab texts that can all be read: the inner scan finds `wanted` exactly when some trimmed text equals it. */
  lemma TabMatchReference(s: Session, tabs: seq<Element>, wanted: string)
    requires forall j :: 0 <= j < |tabs| ==> s.text(tabs[j]).Returns?
    ensures TabMatch(s, tabs, wanted) == Returns(true) <==>
              exists j :: 0 <= j < |tabs| && Trim(s.text(tabs[j]).value) == wanted
  {
    TabMatchReadable(s, tabs, wanted);
  }

  /** Tab texts that can all be read: the outer loop succeeds exactly when every label is some trimmed text. */
  lemma AllTabsFoundReference(s: Session, tabs: seq<Element>, expected: seq<string>)
    requires forall j :: 0 <= j < |tabs| ==> s.text(tabs[j]).Returns?
    ensures AllTabsFound(s, tabs, expected) == Returns(true) <==>
              forall i :: 0 <= i < |expected| ==> exists j :: 0 <= j < |tabs| && Trim(s.text(tabs[j]).value) == expected[i]
  {
    forall i | 0 <= i < |expected|
      ensures TabMatch(s, tabs, expected[i]) == Returns(true) <==>
                exists j :: 0 <= j < |tabs| && Trim(s.text(tabs[j]).value) == expected[i]
    {
      TabMatchReference(s, tabs, expected[i]);
    }
  }

  /** When every tab's text can be read, the check is plain inclusion of the expected labels among the
      trimmed tab texts; an empty expected list passes as soon as one tab exists. */
  lemma HeaderTabsReference(s: Session, expected: seq<string>)
    requires GetElements(s, HEADER_TABS).Some?
    requires forall j :: 0 <= j < |GetElements(s, HEADER_TABS).value| ==> s.text(GetElements(s, HEADER_TABS).value[j]).Returns?
    ensures VerifyHeaderNavigationTabs(s, expected) <==>
              |GetElements(s, HEADER_TABS).value| > 0
              && forall i :: 0 <= i < |expected| ==>
                   exists j :: 0 <= j < |GetElements(s, HEADER_TABS).value|
                               && Trim(s.text(GetElements(s, HEADER_TABS).value[j]).value) == expected[i]
  {
    AllTabsFoundReference(s, GetElements(s, HEADER_TABS).value, expected);
  }

  /** Expected labels are compared untrimmed: one that starts with a space (or any character trim drops)
      can never match, so the check fails. */
  lemma UntrimmedLabelNeverMatches(s: Session, expected: seq<string>, i: nat)
    requires i < |expected| && |expected[i]| > 0 && IsTrimmable(expected[i][0])
    ensures !VerifyHeaderNavigationTabs(s, expected)
  {
    forall t: string
      ensures Trim(t) != expected[i]
    {
      assert Trim(t) == [] || !IsTrimmable(Trim(t)[0]);
    }
  }

  // ---------------------------------------------------------------- the way to the Careers page

  /** The hover tactics on the Company menu, in order; the last one is a plain click. */
  const HoverTactics: seq<Action> := [PointerHover, ScriptHover, NativeClick]

  function HoverFailed(cause: Error): Error {
    Runtime("Failed to hover over Company menu", Some(cause))
  }

  /** `hoverOverCompanyMenu()`: a strict wait for the menu, then pointer hover, script mouseover and a
      direct click, each only after its predecessor threw. A throwing click escapes as a wrapped error. */
  function HoverOverCompanyMenu(s: Session): (r: Result<Action>)
    ensures r.Ok? ==> VisibleWithin(s, COMPANY_MENU, Config.EXPLICIT_WAIT).Some?
    ensures VisibleWithin(s, COMPANY_MENU, Config.EXPLICIT_WAIT).None? ==> r == Err(HoverFailed(NotVisible(COMPANY_MENU)))
    ensures VisibleWithin(s, COMPANY_MENU, Config.EXPLICIT_WAIT).Some? ==>
              var menu := VisibleWithin(s, COMPANY_MENU, Config.EXPLICIT_WAIT).value;
              && (r == Ok(PointerHover) <==> s.act(menu, PointerHover))
              && (r == Ok(ScriptHover) <==> !s.act(menu, PointerHover) && s.act(menu, ScriptHover))
              && (r == Ok(NativeClick) <==> !s.act(menu, PointerHover) && !s.act(menu, ScriptHover) && s.act(menu, NativeClick))
              && (r.Err? <==> !s.act(menu, PointerHover) && !s.act(menu, ScriptHover) && !s.act(menu, NativeClick))
    ensures r.Err? ==> r.error.Runtime? && r.error.message == "Failed to hover over Company menu"
  {
    match WaitVisible(s, COMPANY_MENU)
    case Err(e) => Err(HoverFailed(e))
    case Ok(menu) =>
      var run := FirstAction(s, menu, HoverTactics);
      assert run.tried == HoverTactics[..|run.tried|];
      match run.found
      case Some(t) => Ok(t)
      case None => Err(HoverFailed(BrowserFault))
  }

  /** The Careers link's locators, in the order they are tried. */
  const CareersLinkLocators: seq<Locator> := [CAREERS_LINK, CAREERS_LINK_ALTERNATIVE, CAREERS_LINK_DROPDOWN, CAREERS_LINK_SIMPLE]

  function CareersLinkFailed(cause: Error): Error {
    Runtime("Failed to click Careers link", Some(cause))
  }

  /** `clickCareersLink()`: the first of four locators visible within the default wait, then a native
      click and, only if that throws, a script click. Yields the locator used and the click that worked. */
  function ClickCareersLink(s: Session): (r: Result<(Locator, Action)>)
    ensures FirstVisible(s, CareersLinkLocators, Config.EXPLICIT_WAIT).None? ==>
              r == Err(CareersLinkFailed(Runtime("Careers link not found", None)))
    ensures r.Ok? ==> FirstVisible(s, CareersLinkLocators, Config.EXPLICIT_WAIT).Some?
                      && r.value.0 == FirstVisible(s, CareersLinkLocators, Config.EXPLICIT_WAIT).value.0
    ensures FirstVisible(s, CareersLinkLocators, Config.EXPLICIT_WAIT).Some? ==>
              var link := FirstVisible(s, CareersLinkLocators, Config.EXPLICIT_WAIT).value.1;
              && (r.Ok? && r.value.1 == NativeClick <==> s.act(link, NativeClick))
              && (r.Ok? && r.value.1 == ScriptClick <==> !s.act(link, NativeClick) && s.act(link, ScriptClick))
              && (r == Err(CareersLinkFailed(BrowserFault)) <==> !s.act(link, NativeClick) && !s.act(link, ScriptClick))
  {
    match FirstVisible(s, CareersLinkLocators, Config.EXPLICIT_WAIT)
    case None => Err(CareersLinkFailed(Runtime("Careers link not found", None)))
    case Some((l, link)) =>
      if s.act(link, NativeClick) then Ok((l, NativeClick))
      else if s.act(link, ScriptClick) then Ok((l, ScriptClick))
      else Err(CareersLinkFailed(BrowserFault))
  }

  /** The link used is the earliest of the four locators that resolves. */
  lemma CareersLinkIsFirstVisible(s: Session, k: nat)
    requires k < |CareersLinkLocators|
    requires Resolve(s, CareersLinkLocators[k], Config.EXPLICIT_WAIT).Some?
    requires forall j :: 0 <= j < k ==> Resolve(s, CareersLinkLocators[j], Config.EXPLICIT_WAIT).None?
    requires ClickCareersLink(s).Ok?
    ensures ClickCareersLink(s).value.0 == CareersLinkLocators[k]
  {
    var r := FirstVisible(s, CareersLinkLocators, Config.EXPLICIT_WAIT).value;
    var i :| 0 <= i < |CareersLinkLocators| && CareersLinkLocators[i] == r.0
             && Resolve(s, CareersLinkLocators[i], Config.EXPLICIT_WAIT) == Some(r.1)
             && forall j :: 0 <= j < i ==> Resolve(s, CareersLinkLocators[j], Config.EXPLICIT_WAIT).None?;
    assert i == k;
  }

  function NavigateCareersFailed(cause: Error): Error {
    Runtime("Failed to navigate to Careers page", Some(cause))
  }

  /** `navigateToCareersPage()`: hover over the Company menu, then click the Careers link. */
  function NavigateToCareersPage(s: Session): (r: Result<()>)
    ensures r.Ok? <==> HoverOverCompanyMenu(s).Ok? && ClickCareersLink(s).Ok?
    ensures HoverOverCompanyMenu(s).Err? ==> r == Err(NavigateCareersFailed(HoverOverCompanyMenu(s).error))
    ensures HoverOverCompanyMenu(s).Ok? && ClickCareersLink(s).Err? ==> r == Err(NavigateCareersFailed(ClickCareersLink(s).error))
  {
    match HoverOverCompanyMenu(s)
    case Err(e) => Err(NavigateCareersFailed(e))
    case Ok(_) =>
      match ClickCareersLink(s)
      case Err(e) => Err(NavigateCareersFailed(e))
      case Ok(_) => Ok(())
  }
}

=== FILE: insider_test.dfy ===
/** The acceptance scenario: five dependent test steps and a closing end-to-end step, each a verdict over what
    the browser reports, with the screenshots taken when a step fails. */
module InsiderTest {
  import opened Outcomes
  import opened Text
  import opened Browser
  import Config
  import BasePage
  import HomePage
  import CareersPage
  import QACareersPage
  import ScreenshotUtil

  // ---------------------------------------------------------------- set-up

  /** `setUpClass(browser)`: a missing or empty browser parameter falls back to the configured default. */
  function BrowserChoice(parameter: Option<string>): (r: string)
    ensures r != []
    ensures parameter.Some? && parameter.value != [] ==> r == parameter.value
    ensures r != Config.DEFAULT_BROWSER ==> parameter == Some(r)
  {
    if parameter.None? || parameter.value == [] then Config.DEFAULT_BROWSER else parameter.value
  }

  /** Passing the chosen browser back in chooses it again. */
  lemma BrowserChoiceIsStable(parameter: Option<string>)
    ensures BrowserChoice(Some(BrowserChoice(parameter))) == BrowserChoice(parameter)
  {
  }

  // ---------------------------------------------------------------- assertions and captures

  /** How each capture attempt goes, by the file name it is taken under. */
  type Camera = string -> ScreenshotUtil.Capture

  /** `takeScreenshotWithMessage(driver, tag)` called for its effect: only an exception it raises matters. */
  function Snap(tag: string, now: ScreenshotUtil.DateTime, camera: Camera): (r: Result<()>)
    ensures r.Ok? <==> !camera(ScreenshotUtil.MessageFileName(tag)).OtherFailure?
  {
    match ScreenshotUtil.TakeScreenshotWithMessage(tag, now, camera(ScreenshotUtil.MessageFileName(tag)))
    case Err(e) => Err(e)
    case Ok(_) => Ok(())
  }

  // ---------------------------------------------------------------- step 1: the home page

  /** `testInsiderHomePageOpened`: the home page loads and identifies itself, and the header holds every
      expected tab label. */
  function HomePageStep(s: Session, tabs: seq<string>): (r: Result<()>)
    ensures r.Ok? <==> HomePage.NavigateToHomePage(s).Ok? && HomePage.VerifyHomePageOpened(s)
                       && HomePage.VerifyHeaderNavigationTabs(s, tabs)
    ensures HomePage.NavigateToHomePage(s).Err? ==> r == HomePage.NavigateToHomePage(s)
    ensures HomePage.NavigateToHomePage(s).Ok? && r.Err? ==> r.error.Assertion?
  {
    var _ :- HomePage.NavigateToHomePage(s);
    var _ :- AssertTrue(HomePage.VerifyHomePageOpened(s), "Insider home page is not opened properly");
    AssertTrue(HomePage.VerifyHeaderNavigationTabs(s, tabs), "Header navigation tabs are not present")
  }

  /** What a passing first step has seen: the site's title and URL, the three landmarks, and every expected
      tab label as the trimmed text of some header tab. */
  lemma HomePageStepObservations(s: Session, tabs: seq<string>)
    requires HomePageStep(s, tabs).Ok?
    ensures s.opens(Config.BASE_URL)
    ensures s.title.Returns? && Contains(s.title.value, "Insider")
    ensures s.url.Returns? && Contains(s.url.value, "useinsider.com")
    ensures forall i :: 0 <= i < |HomePage.HomeLandmarks| ==> BasePage.IsElementDisplayed(s, HomePage.HomeLandmarks[i])
    ensures BasePage.HasItems(BasePage.GetElements(s, HomePage.HEADER_TABS))
    ensures forall i :: 0 <= i < |tabs| ==>
              exists j :: 0 <= j < |BasePage.GetElements(s, HomePage.HEADER_TABS).value|
                          && s.text(BasePage.GetElements(s, HomePage.HEADER_TABS).value[j]).Returns?
                          && Trim(s.text(BasePage.GetElements(s, HomePage.HEADER_TABS).value[j]).value) == tabs[i]
  {
  }

  // ---------------------------------------------------------------- step 2: the careers page

  const CareersOffPageLabel: string := "careers_page_verification_failed"

  /** A failed careers-page check is tolerated when, after a capture, the current URL mentions careers. */
  function CareersGate(s: Session, now: ScreenshotUtil.DateTime, camera: Camera): (r: Result<()>)
    ensures CareersPage.VerifyCareersPageOpened(s) ==> r == Ok(())
    ensures !CareersPage.VerifyCareersPageOpened(s) ==>
              (r.Ok? <==> Snap(CareersOffPageLabel, now, camera).Ok? && s.url.Returns? && Contains(s.url.value, "careers"))
  {
    if CareersPage.VerifyCareersPageOpened(s) then Ok(())
    else
      var _ :- Snap(CareersOffPageLabel, now, camera);
      match s.url
      case Throws => Err(BrowserFault)
      case Returns(url) => AssertTrue(Contains(url, "careers"), "Not on careers page - Current URL: " + url)
  }

  /** The gate is the URL check: it passes iff the URL mentions careers, and the capture it may take did not
      raise. The title, content and page-source probes decide nothing. */
  lemma CareersGateIsUrlCheck(s: Session, now: ScreenshotUtil.DateTime, camera: Camera)
    ensures CareersGate(s, now, camera).Ok? <==>
              s.url.Returns? && Contains(s.url.value, "careers")
              && (CareersPage.VerifyCareersPageOpened(s) || Snap(CareersOffPageLabel, now, camera).Ok?)
  {
  }

  /** Teams: a present section must list at least one team. Which teams, and the expansion, are only logged. */
  function TeamsCheck(s: Session): (r: Result<()>)
    ensures r.Ok? <==> !CareersPage.VerifyTeamsSection(s) || CareersPage.GetTeamNames(s) != []
    ensures r.Err? ==> r.error == AssertTrueFailure("Teams section is present but has no team items")
  {
    if CareersPage.VerifyTeamsSection(s)
    then AssertTrue(|CareersPage.GetTeamNames(s)| > 0, "Teams section is present but has no team items")
    else Ok(())
  }

  /** Locations: a present section must list at least one location. */
  function LocationsCheck(s: Session): (r: Result<()>)
    ensures r.Ok? <==> !CareersPage.VerifyLocationsSection(s) || CareersPage.GetLocationNames(s) != []
    ensures r.Err? ==> r.error == AssertTrueFailure("Locations section is present but has no location items")
  {
    if CareersPage.VerifyLocationsSection(s)
    then AssertTrue(|CareersPage.GetLocationNames(s)| > 0, "Locations section is present but has no location items")
    else Ok(())
  }

  /** Life at Insider: a present section must have slides, images, and a functional carousel. In this model the
      carousel assertion never decides: slides and images were asserted just before it, and a functional carousel
      is exactly both. That relies on the step's single session: the counts and the carousel check are separate
      DOM scans in the browser, and a page that changed between them could still trip the carousel assertion. */
  function LifeCheck(s: Session): (r: Result<()>)
    ensures r.Ok? <==> (CareersPage.VerifyLifeAtInsiderSection(s) ==>
                          CareersPage.GetLifeAtInsiderSlidesCount(s) > 0 && CareersPage.GetLifeAtInsiderImagesCount(s) > 0)
    ensures r != Err(AssertTrueFailure("Life at Insider carousel is not functional"))
  {
    if CareersPage.VerifyLifeAtInsiderSection(s) then
      var _ :- AssertTrue(CareersPage.GetLifeAtInsiderSlidesCount(s) > 0, "Life at Insider section is present but has no slides");
      var _ :- AssertTrue(CareersPage.GetLifeAtInsiderImagesCount(s) > 0, "Life at Insider section is present but has no images");
      AssertTrue(CareersPage.VerifyLifeAtInsiderCarouselFunctional(s), "Life at Insider carousel is not functional")
    else Ok(())
  }

  /** The section verdict stated directly: some section is present, and each present one has content. */
  predicate SectionsAcceptable(s: Session) {
    && (CareersPage.VerifyTeamsSection(s) || CareersPage.VerifyLocationsSection(s) || CareersPage.VerifyLifeAtInsiderSection(s))
    && (CareersPage.VerifyTeamsSection(s) ==> |CareersPage.GetTeamNames(s)| > 0)
    && (CareersPage.VerifyLocationsSection(s) ==> |CareersPage.GetLocationNames(s)| > 0)
    && (CareersPage.VerifyLifeAtInsiderSection(s) ==>
          CareersPage.GetLifeAtInsiderSlidesCount(s) > 0 && CareersPage.GetLifeAtInsiderImagesCount(s) > 0)
  }

  /** `testCareersPageSections`: reach the careers page through the Company menu, pass the gate, then check
      Teams, Locations and Life at Insider in that order. The required-sections verdict is ignored. */
  function CareersStep(s: Session, now: ScreenshotUtil.DateTime, camera: Camera): (r: Result<()>)
    ensures r.Ok? <==> HomePage.NavigateToCareersPage(s).Ok? && CareersGate(s, now, camera).Ok? && SectionsAcceptable(s)
    ensures HomePage.NavigateToCareersPage(s).Err? ==> r == HomePage.NavigateToCareersPage(s)
  {
    var _ :- HomePage.NavigateToCareersPage(s);
    var _ :- CareersGate(s, now, camera);
    var _ :- TeamsCheck(s);
    var _ :- LocationsCheck(s);
    var _ :- LifeCheck(s);
    AssertTrue(CareersPage.VerifyTeamsSection(s) || CareersPage.VerifyLocationsSection(s) || CareersPage.VerifyLifeAtInsiderSection(s),
               "No required sections found on Careers page")
  }

  // ---------------------------------------------------------------- step 3: QA jobs and filtering

  /** A failed QA-page check is tolerated when the current URL mentions quality-assurance. */
  function QAGate(s: Session): (r: Result<()>)
    ensures r.Ok? <==> QACareersPage.VerifyQACareersPageOpened(s) || (s.url.Returns? && Contains(s.url.value, "quality-assurance"))
  {
    if QACareersPage.VerifyQACareersPageOpened(s) then Ok(())
    else
      match s.url
      case Throws => Err(BrowserFault)
      case Returns(url) => AssertTrue(Contains(url, "quality-assurance"), "Not on QA careers page - Current URL: " + url)
  }

  /** `testQAJobsPageAndFilter`: open the QA page, pass the gate, click "See all QA jobs", filter (the result is
      ignored), then require a job list and a positive job count. */
  function QAJobsStep(s: Session, criteria: QACareersPage.Criteria): (r: Result<()>)
    ensures r.Ok? <==> QACareersPage.NavigateToQACareersPage(s).Ok? && QACareersPage.ClickSeeAllQAJobsButton(s)
                       && QACareersPage.VerifyJobListPresent(s)
    ensures QACareersPage.NavigateToQACareersPage(s).Err? ==> r == QACareersPage.NavigateToQACareersPage(s)
    ensures QACareersPage.NavigateToQACareersPage(s).Ok? && r.Err? ==> r.error.Assertion?
  {
    var _ :- QACareersPage.NavigateToQACareersPage(s);
    match QAGate(s)
    case Err(e) => Err(e)
    case Ok(_) =>
    var _ :- AssertTrue(QACareersPage.ClickSeeAllQAJobsButton(s), "Failed to click 'See all QA jobs' button");
    var _ := QACareersPage.FilterJobsByLocationAndDepartment(s, criteria);
    var _ :- AssertTrue(QACareersPage.VerifyJobListPresent(s), "Job list is not present after filtering");
    QACareersPage.JobCountPositiveIffPresent(s);
    AssertTrue(QACareersPage.GetNumberOfJobs(s) > 0, "No jobs found after filtering")
  }

  /** Neither the page-opened gate nor the job-count assertion can fail the step: the navigation already
      required the URL the gate falls back on, and a present job list has a positive count. Both facts hold
      because the step reads one session; the browser scans the URL and the job lists again each time, so a page
      that changed between the reads is outside this claim. */
  lemma QAJobsStepRedundantChecks(s: Session, criteria: QACareersPage.Criteria)
    ensures QACareersPage.NavigateToQACareersPage(s).Ok? ==> QAGate(s).Ok?
    ensures QAJobsStep(s, criteria) != Err(AssertTrueFailure("No jobs found after filtering"))
  {
    QACareersPage.JobCountPositiveIffPresent(s);
  }

  /** Whatever the filter criteria, the step's outcome is the same: filtering is not a pass condition. */
  lemma FilteringIsNotFatal(s: Session, c1: QACareersPage.Criteria, c2: QACareersPage.Criteria)
    ensures QAJobsStep(s, c1) == QAJobsStep(s, c2)
  {
  }

  // ---------------------------------------------------------------- step 4: job details

  /** `testJobDetailsVerification`: the details verdict is computed and ignored; the step needs jobs. */
  function JobDetailsStep(s: Session, details: Option<map<string, string>>): (r: Result<()>)
    ensures r.Ok? <==> QACareersPage.VerifyJobListPresent(s)
    ensures r.Err? ==> r.error == AssertTrueFailure("No jobs found to verify details")
  {
    var _ := QACareersPage.VerifyAllJobsContainExpectedDetails(s, details);
    QACareersPage.JobCountPositiveIffPresent(s);
    AssertTrue(QACareersPage.GetNumberOfJobs(s) > 0, "No jobs found to verify details")
  }

  // ---------------------------------------------------------------- step 5: View Role

  /** `testViewRoleButtonRedirect`: the View Role click succeeds and the browser lands on a Lever URL. */
  function ViewRoleStep(s: Session): (r: Result<()>)
    ensures r.Ok? <==> QACareersPage.ClickFirstViewRoleButton(s) && s.url.Returns? && Contains(s.url.value, "lever")
    ensures r.Err? ==> r.error.Assertion?
  {
    var _ :- AssertTrue(QACareersPage.ClickFirstViewRoleButton(s), "Failed to click View Role button");
    AssertTrue(QACareersPage.VerifyRedirectToLeverPage(s), "Failed to redirect to Lever Application form page")
  }

  // ---------------------------------------------------------------- the chain

  /** What TestNG records for one test method. */
  datatype Status = Passed | Failed(error: Error) | Skipped

  /** The inputs read from the test data file: header tab labels, filter criteria and expected job details. */
  datatype TestData = TestData(tabs: seq<string>, criteria: QACareersPage.Criteria, details: Option<map<string, string>>)

  const ClassName: string := "automation.com.tests.InsiderTest"

  /** The test methods, in dependency order: each depends on the one before it. */
  const MethodNames: seq<string> := [
    "testInsiderHomePageOpened", "testCareersPageSections", "testQAJobsPageAndFilter",
    "testJobDetailsVerification", "testViewRoleButtonRedirect", "testCompleteEndToEndFlow"
  ]

  /** The label each method's catch block captures under. */
  const FailureLabels: seq<string> := [
    "test1_homepage_failed", "test2_careers_sections_failed", "test3_qa_jobs_filter_failed",
    "test4_job_details_failed", "test5_view_role_redirect_failed", "complete_flow_failed"
  ]

  const StepCount: nat := 6

  /** The try-block of step `n`, run against the browser as it is during that step. */
  function StepBody(n: nat, s: Session, data: TestData, now: ScreenshotUtil.DateTime, camera: Camera): (r: Result<()>)
    requires n < StepCount
    ensures n == StepCount - 1 ==> r.Ok?
  {
    if n == 0 then HomePageStep(s, data.tabs)
    else if n == 1 then CareersStep(s, now, camera)
    else if n == 2 then QAJobsStep(s, data.criteria)
    else if n == 3 then JobDetailsStep(s, data.details)
    else if n == 4 then ViewRoleStep(s)
    else Ok(())
  }

  /** The catch block: an exception gets a capture under the step's label and is rethrown; if the capture
      itself raises, that exception replaces it. An AssertionError is not an Exception and passes untouched. */
  function Settle(tag: string, body: Result<()>, now: ScreenshotUtil.DateTime, camera: Camera): (st: Status)
    ensures st.Passed? <==> body.Ok?
    ensures st != Skipped
    ensures body.Err? && !body.error.IsException() ==> st == Failed(body.error)
    ensures body.Err? && body.error.IsException() ==>
              st == Failed(if Snap(tag, now, camera).Ok? then body.error else BrowserFault)
  {
    match body
    case Ok(_) => Passed
    case Err(e) =>
      if !e.IsException() then Failed(e)
      else
        match Snap(tag, now, camera)
        case Err(captureError) => Failed(captureError)
        case Ok(_) => Failed(e)
  }

  /** The file names captured for one run of a step: the labelled capture of the catch block (exceptions only),
      then the failed-test capture of the after-method hook (every failure). */
  function Captures(n: nat, body: Result<()>): (names: seq<string>)
    requires n < StepCount
    ensures body.Ok? <==> names == []
    ensures body.Err? ==> names[|names| - 1] == ScreenshotUtil.FailedTestFileName(ClassName, MethodNames[n])
    ensures body.Err? ==> (|names| == 2 <==> body.error.IsException())
  {
    if body.Ok? then []
    else
      (if body.error.IsException() then [ScreenshotUtil.MessageFileName(FailureLabels[n])] else [])
      + [ScreenshotUtil.FailedTestFileName(ClassName, MethodNames[n])]
  }

  /** Steps 4 and 5 only fail by assertion, so they never take their labelled capture. */
  lemma LateStepsCaptureOnlyInHook(s: Session, data: TestData, now: ScreenshotUtil.DateTime, camera: Camera, n: nat)
    requires n == 3 || n == 4
    ensures |Captures(n, StepBody(n, s, data, now, camera))| <= 1
  {
  }

  /** The status of step `n` when it runs. */
  function StepStatus(n: nat, s: Session, data: TestData, now: ScreenshotUtil.DateTime, camera: Camera): (st: Status)
    requires n < StepCount
    ensures st != Skipped
    ensures st.Passed? <==> StepBody(n, s, data, now, camera).Ok?
    ensures n == StepCount - 1 ==> st == Passed
  {
    Settle(FailureLabels[n], StepBody(n, s, data, now, camera), now, camera)
  }

  /** TestNG's `dependsOnMethods` chain over the statuses the steps would have if run: the first step always
      runs, and every later one runs only if its predecessor passed. */
  function Chain(would: seq<Status>): (r: seq<Status>)
    ensures |r| == |would|
    ensures |would| > 0 ==> r[0] == would[0]
    ensures forall n :: 1 <= n < |would| ==> r[n] == (if r[n - 1].Passed? then would[n] else Skipped)
  {
    if would == [] then []
    else
      var prefix := Chain(would[..|would| - 1]);
      prefix + [if |would| == 1 || prefix[|would| - 2].Passed? then would[|would| - 1] else Skipped]
  }

  /** In a chain of steps that report a verdict when run, a step that ran had every earlier step pass, and a
      step was skipped exactly when some earlier step failed. */
  lemma {:induction false} ChainIsForward(would: seq<Status>, n: nat)
    requires forall m :: 0 <= m < |would| ==> would[m] != Skipped
    requires n < |would|
    ensures Chain(would)[n] != Skipped ==> forall m :: 0 <= m < n ==> Chain(would)[m].Passed?
    ensures Chain(would)[n].Skipped? <==> exists m :: 0 <= m < n && Chain(would)[m].Failed?
  {
    var r := Chain(would);
    if n > 0 {
      ChainIsForward(would, n - 1);
      if r[n - 1].Failed? {
        assert r[n].Skipped?;
      }
    }
  }

  /** When the last step cannot fail, it passes exactly when every earlier step passed. */
  lemma LastPassesIffAllPassed(would: seq<Status>)
    requires forall m :: 0 <= m < |would| ==> would[m] != Skipped
    requires |would| > 0 && would[|would| - 1] == Passed
    ensures Chain(would)[|would| - 1].Passed? <==> forall m :: 0 <= m < |would| - 1 ==> Chain(would)[m].Passed?
  {
    ChainIsForward(would, |would| - 1);
  }

  /** A step of the chain passes exactly when it and every step before it would pass. */
  lemma {:induction false} ChainPassesIffPrefixPasses(would: seq<Status>)
    ensures forall n :: 0 <= n < |would| ==> (Chain(would)[n].Passed? <==> forall m :: 0 <= m <= n ==> would[m].Passed?)
  {
    if would != [] {
      var prefix := would[..|would| - 1];
      ChainPassesIffPrefixPasses(prefix);
      assert Chain(would)[..|would| - 1] == Chain(prefix);
      assert forall m :: 0 <= m < |prefix| ==> prefix[m] == would[m];
    }
  }

  /** The forward property at every position at once. */
  lemma ChainSkipsExactlyAfterFailure(would: seq<Status>)
    requires forall m :: 0 <= m < |would| ==> would[m] != Skipped
    ensures forall n :: 0 <= n < |would| ==> (Chain(would)[n].Skipped? <==> exists m :: 0 <= m < n && Chain(would)[m].Failed?)
  {
    forall n | 0 <= n < |would|
      ensures Chain(would)[n].Skipped? <==> exists m :: 0 <= m < n && Chain(would)[m].Failed?
    {
      ChainIsForward(would, n);
    }
  }

  /** At most one step fails; every step after it is skipped. */
  lemma AtMostOneFailure(would: seq<Status>, n: nat, m: nat)
    requires forall k :: 0 <= k < |would| ==> would[k] != Skipped
    requires n < m < |would|
    requires Chain(would)[n].Failed?
    ensures Chain(would)[m].Skipped?
  {
    ChainIsForward(would, m);
  }

  /** The status each step would have if it ran, each seeing the browser as it is during that step. */
  function Verdicts(sessions: seq<Session>, data: TestData, now: ScreenshotUtil.DateTime, camera: Camera): (would: seq<Status>)
    requires |sessions| == StepCount
    ensures |would| == StepCount
    ensures forall n :: 0 <= n < StepCount ==> would[n] != Skipped
    ensures forall n :: 0 <= n < StepCount ==> (would[n].Passed? <==> StepBody(n, sessions[n], data, now, camera).Ok?)
    ensures would[StepCount - 1] == Passed
  {
    seq(StepCount, n requires 0 <= n < StepCount => StepStatus(n, sessions[n], data, now, camera))
  }

  /** The whole class: one status per test method. A method passes exactly when its own body and the bodies of
      every method before it succeed, and it is skipped exactly when an earlier method failed. */
  function Run(sessions: seq<Session>, data: TestData, now: ScreenshotUtil.DateTime, camera: Camera): (r: seq<Status>)
    requires |sessions| == StepCount
    ensures |r| == StepCount
    ensures forall n :: 0 <= n < StepCount ==>
              (r[n].Passed? <==> forall m :: 0 <= m <= n ==> StepBody(m, sessions[m], data, now, camera).Ok?)
    ensures forall n :: 0 <= n < StepCount ==> (r[n].Skipped? <==> exists m :: 0 <= m < n && r[m].Failed?)
  {
    var would := Verdicts(sessions, data, now, camera);
    ChainPassesIffPrefixPasses(would);
    ChainSkipsExactlyAfterFailure(would);
    Chain(would)
  }

  /** A test method that ran had all the methods it depends on, directly or not, pass. */
  lemma RunIsForward(sessions: seq<Session>, data: TestData, now: ScreenshotUtil.DateTime, camera: Camera, n: nat)
    requires |sessions| == StepCount && n < StepCount
    ensures Run(sessions, data, now, camera)[n] != Skipped ==> forall m :: 0 <= m < n ==> Run(sessions, data, now, camera)[m].Passed?
  {
    ChainIsForward(Verdicts(sessions, data, now, camera), n);
  }

  /** The end-to-end step passes exactly when the five real steps all passed: its own body cannot fail. */
  lemma EndToEndMeansAllPassed(sessions: seq<Session>, data: TestData, now: ScreenshotUtil.DateTime, camera: Camera)
    requires |sessions| == StepCount
    ensures Run(sessions, data, now, camera)[5].Passed? <==>
              forall n :: 0 <= n < 5 ==> Run(sessions, data, now, camera)[n].Passed?
  {
    LastPassesIffAllPassed(Verdicts(sessions, data, now, camera));
  }
}

=== FILE: outcomes.dfy ===
/** Failure-aware result types shared by the whole model.

    - `Option<T>` stands for a Java reference that may be `null`.
    - `Reply<T>` is the answer of one browser call: it returns a value or it throws.
    - `Result<T>` is the outcome of one operation of the suite: a value, or an `Error` it raises.
 */
module Outcomes {

  /** A Java reference that may be null. */
  datatype Option<+T> = None | Some(value: T) {

    /** The referenced value, or `default` when the reference is null. */
    function GetOr(default: T): T {
      match this
      case Some(v) => v
      case None => default
    }
  }

  /** What one call into the browser did: returned a value, or threw. */
  datatype Reply<+T> = Returns(value: T) | Throws {

    /** The reply seen through a `catch` that turns any exception into null. */
    function OrNull(): Option<T> {
      match this
      case Returns(v) => Some(v)
      case Throws => None
    }
  }

  /** The exceptions the suite raises or lets escape. */
  datatype Error =
    | Runtime(message: string, cause: Option<Error>)  // a RuntimeException built by the suite
    | Assertion(message: string)                     // a failed TestNG assertion (an AssertionError)
    | BrowserFault                                   // an exception thrown by the browser, propagated unchanged
    | WaitTimeout                                    // the TimeoutException of an exhausted explicit wait
  {
    /** True for the exceptions a `catch (Exception e)` block intercepts: an AssertionError is not one of them. */
    predicate IsException() {
      !Assertion?
    }
  }

  /** The AssertionError TestNG's `Assert.assertTrue(condition, message)` raises: the given message followed by
      the expected and the actual value. */
  function AssertTrueFailure(message: string): (e: Error)
    ensures e.Assertion? && !e.IsException()
    ensures |e.message| > |message| && e.message[..|message|] == message
  {
    Assertion(message + " expected [true] but found [false]")
  }

  /** Different messages give different failures: the message is recoverable from the error. */
  lemma AssertTrueFailureInjective(m1: string, m2: string)
    requires AssertTrueFailure(m1) == AssertTrueFailure(m2)
    ensures m1 == m2
  {
    var suffix := " expected [true] but found [false]";
    assert m1 + suffix == m2 + suffix;
    assert |m1| == |m2|;
    assert m1 == (m1 + suffix)[..|m1|] == (m2 + suffix)[..|m2|] == m2;
  }

  /** The outcome of an operation of the suite: a value, or an error raised to the caller. */
  datatype Result<+T> = Ok(value: T) | Err(error: Error) {

    predicate IsFailure() {
      Err?
    }

    function PropagateFailure<U>(): Result<U>
      requires Err?
    {
      Err(error)
    }

    function Extract(): T
      requires Ok?
    {
      value
    }
  }

  /** `Assert.assertTrue(condition, message)`: passes exactly when the condition holds; otherwise raises an
      AssertionError carrying the message, which a `catch (Exception e)` does not intercept. */
  function AssertTrue(condition: bool, message: string): (r: Result<()>)
    ensures r.Ok? <==> condition
    ensures r.Err? ==> !r.error.IsException() && r.error == AssertTrueFailure(message)
  {
    if condition then Ok(()) else Err(AssertTrueFailure(message))
  }
}

=== FILE: qa_careers_page.dfy ===
/** The Quality Assurance careers page: the "See all QA jobs" button, the location and department filters
    with their five-tactic dropdown selection, the job list, the per-job detail check, and the View Role
    button that leads to the Lever application form. */
module QACareersPage {
  import opened Outcomes
  import opened Text
  import opened Browser
  import opened Fallback
  import opened BasePage
  import Config

  const SEE_ALL_QA_JOBS_BUTTON: Locator :=
    Locator(XPath, "//a[contains(@href, 'qualityassurance') and contains(text(), 'See all QA jobs')]")
  const LOCATION_FILTER: Locator := Locator(Id, "filter-by-location")
  const DEPARTMENT_FILTER: Locator := Locator(Id, "filter-by-department")

  const JOB_LIST: Locator :=
    Locator(XPath, "//div[contains(@class, 'job-item') or contains(@class, 'position-item') or contains(@class, 'position-list-item') or contains(@class, 'job-list-item')]")
  const JOB_LIST_ALTERNATIVE1: Locator := Locator(XPath, "//div[contains(@class, 'position')]")
  const JOB_LIST_ALTERNATIVE2: Locator := Locator(XPath, "//div[contains(@class, 'job')]")
  const JOB_LIST_ALTERNATIVE3: Locator := Locator(XPath, "//li[contains(@class, 'position') or contains(@class, 'job')]")
  const JOB_LIST_ALTERNATIVE4: Locator := Locator(XPath, "//article[contains(@class, 'position') or contains(@class, 'job')]")

  const JOB_POSITION: Locator :=
    Locator(XPath, ".//h3[contains(@class, 'position-title') or contains(@class, 'job-title') or contains(@class, 'title')]")
  const JOB_DEPARTMENT: Locator := Locator(XPath, ".//span[contains(@class, 'position-department') or contains(@class, 'department')]")
  const JOB_LOCATION: Locator := Locator(XPath, ".//div[contains(@class, 'position-location') or contains(@class, 'location')]")

  const VIEW_ROLE_BUTTON: Locator :=
    Locator(XPath, "(//div[contains(@class, 'position-list-item') or contains(@class, 'job-item') or contains(@class, 'position-item')])[1]//a[contains(@class, 'btn') and (contains(text(), 'View Role') or contains(text(), 'Apply') or contains(text(), 'View'))]")
  const VIEW_ROLE_BUTTON_ALTERNATIVE1: Locator := Locator(Css, "div.position-list-item:nth-of-type(1) a.btn.btn-navy")
  const VIEW_ROLE_BUTTON_ALTERNATIVE2: Locator := Locator(XPath, "(//a[contains(@class, 'btn') and contains(text(), 'View Role')])[1]")
  const VIEW_ROLE_BUTTON_ALTERNATIVE3: Locator := Locator(XPath, "(//a[contains(@href, 'lever.co')])[1]")

  const FIRST_JOB_ITEM: Locator :=
    Locator(XPath, "(//div[contains(@class, 'position-list-item') or contains(@class, 'job-item') or contains(@class, 'position-item')])[1]")
  const PAGE_TITLE: Locator := Locator(XPath, "//h1[contains(text(), 'Quality Assurance') or contains(text(), 'QA')]")

  // ---------------------------------------------------------------- page identity and entry

  /** `navigateToQACareersPage()`: load the QA careers URL, then require the title and URL to name it. */
  function NavigateToQACareersPage(s: Session): (r: Result<()>)
    ensures r.Ok? <==> s.opens(Config.QA_CAREERS_URL)
                       && s.title.Returns? && Contains(s.title.value, "quality assurance")
                       && s.url.Returns? && Contains(s.url.value, "quality-assurance")
    ensures !s.opens(Config.QA_CAREERS_URL) ==>
              r == Err(Runtime("Failed to navigate to URL: " + Config.QA_CAREERS_URL, Some(BrowserFault)))
  {
    match NavigateTo(s, Config.QA_CAREERS_URL)
    case Err(e) => Err(e)
    case Ok(_) =>
      match VerifyPageTitle(s, "quality assurance")
      case Err(e) => Err(e)
      case Ok(_) => VerifyCurrentUrl(s, "quality-assurance")
  }

  /** `verifyQACareersPageOpened()`: heading displayed and URL naming the page; a throwing URL read is false. */
  function VerifyQACareersPageOpened(s: Session): (r: bool)
    ensures r ==> s.url.Returns? && Contains(s.url.value, "quality-assurance")
    ensures r <==> IsElementDisplayed(s, PAGE_TITLE) && s.url.Returns? && Contains(s.url.value, "quality-assurance")
  {
    var titlePresent := IsElementDisplayed(s, PAGE_TITLE);
    match s.url
    case Throws => false
    case Returns(url) => titlePresent && Contains(url, "quality-assurance")
  }

  /** `clickSeeAllQAJobsButton()`: a strict visibility wait and a lookup, then scroll and the four-tactic
      ladder; every failure is caught and reported as false. */
  function ClickSeeAllQAJobsButton(s: Session): (r: bool)
    ensures r ==> Resolve(s, SEE_ALL_QA_JOBS_BUTTON, Config.EXPLICIT_WAIT).Some?
    ensures Resolve(s, SEE_ALL_QA_JOBS_BUTTON, Config.EXPLICIT_WAIT).Some? ==>
              var button := Resolve(s, SEE_ALL_QA_JOBS_BUTTON, Config.EXPLICIT_WAIT).value;
              (r <==> s.act(button, ScrollIntoView) && exists i :: 0 <= i < |ClickTactics| && s.act(button, ClickTactics[i]))
  {
    match Resolve(s, SEE_ALL_QA_JOBS_BUTTON, Config.EXPLICIT_WAIT)
    case None => false
    case Some(button) => ScrollThenClick(s, button)
  }

  // ---------------------------------------------------------------- dropdown selection

  /** How `selectDropdownOption` ended when it returned normally. */
  datatype Selection =
    | ByText(text: string)               // exact visible text
    | ByPartialText(text: string)        // the first option whose trimmed text overlaps the target
    | ByClickingOption(option: Element)  // the dropdown clicked open, then the matching option clicked
    | ByScript                           // the value set by script
    | ByIndex(index: nat)                // the first option whose trimmed text contains the target, by index
    | Unselected                         // the last tactic found no option and returned without selecting

  /** An option the scan has passed over: its text was read and its trimmed text is not wanted. */
  predicate Passed(s: Session, option: Element, wanted: string -> bool) {
    s.text(option).Returns? && !wanted(Trim(s.text(option).value))
  }

  /** The first option, from index `from` on, whose trimmed text is `wanted`: its index and trimmed text.
      Throws when reading a text throws before such an option is reached. */
  function FirstOptionFrom(s: Session, options: seq<Element>, wanted: string -> bool, from: nat): (r: Reply<Option<(nat, string)>>)
    requires from <= |options|
    decreases |options| - from
    ensures r.Returns? && r.value.Some? ==>
              from <= r.value.value.0 < |options|
              && s.text(options[r.value.value.0]).Returns?
              && r.value.value.1 == Trim(s.text(options[r.value.value.0]).value)
              && wanted(r.value.value.1)
              && forall j :: from <= j < r.value.value.0 ==> Passed(s, options[j], wanted)
    ensures r == Returns(None) <==> forall j :: from <= j < |options| ==> Passed(s, options[j], wanted)
    ensures r.Throws? ==> exists j :: from <= j < |options| && s.text(options[j]).Throws?
  {
    if from == |options| then Returns(None)
    else
      match s.text(options[from])
      case Throws => Throws
      case Returns(raw) =>
        var v := Trim(raw);
        if wanted(v) then Returns(Some((from, v)))
        else FirstOptionFrom(s, options, wanted, from + 1)
  }

  /** Option `i` is where the scan stops: every option before it was passed over, and its own text reads and
      its trimmed text is wanted. */
  predicate FirstWantedAt(s: Session, options: seq<Element>, wanted: string -> bool, i: int) {
    && 0 <= i < |options|
    && s.text(options[i]).Returns?
    && wanted(Trim(s.text(options[i]).value))
    && forall j :: 0 <= j < i ==> Passed(s, options[j], wanted)
  }

  lemma {:induction false} FirstOptionFromReaches(s: Session, options: seq<Element>, wanted: string -> bool, from: nat, i: nat)
    requires from <= i < |options|
    requires s.text(options[i]).Returns? && wanted(Trim(s.text(options[i]).value))
    requires forall j :: from <= j < i ==> Passed(s, options[j], wanted)
    ensures FirstOptionFrom(s, options, wanted, from) == Returns(Some((i, Trim(s.text(options[i]).value))))
    decreases i - from
  {
    if from < i {
      assert Passed(s, options[from], wanted);
      var raw := s.text(options[from]).value;
      assert !wanted(Trim(raw));
      FirstOptionFromReaches(s, options, wanted, from + 1, i);
      assert FirstOptionFrom(s, options, wanted, from) == FirstOptionFrom(s, options, wanted, from + 1);
    }
  }

  /** The scan from the first option stops exactly at the first wanted option, whichever it is. */
  lemma FirstOptionIsFirstWanted(s: Session, options: seq<Element>, wanted: string -> bool)
    ensures forall i :: FirstWantedAt(s, options, wanted, i) ==>
              FirstOptionFrom(s, options, wanted, 0) == Returns(Some((i, Trim(s.text(options[i]).value))))
  {
    forall i | FirstWantedAt(s, options, wanted, i)
      ensures FirstOptionFrom(s, options, wanted, 0) == Returns(Some((i, Trim(s.text(options[i]).value))))
    {
      FirstOptionFromReaches(s, options, wanted, 0, i);
    }
  }

  /** The partial-match test: the option text contains the target or the target contains it. */
  predicate Overlaps(optionValue: string, target: string) {
    Contains(optionValue, target) || Contains(target, optionValue)
  }

  /** The index tactic's test: equal to the target or containing it. */
  predicate EqualsOrContains(optionValue: string, target: string) {
    optionValue == target || Contains(optionValue, target)
  }

  /** The partial-match test as the scan's filter. */
  function Overlapping(t: string): string -> bool {
    v => Overlaps(v, t)
  }

  /** The index tactic's test as the scan's filter. */
  function Matching(t: string): string -> bool {
    v => EqualsOrContains(v, t)
  }

  /** Tactic 2: the first overlapping option, selected by its trimmed text. None sends the ladder on, whether
      the options could not be listed, a text read threw, nothing matched or the selection threw. */
  function PartialTactic(s: Session, d: Element, t: string): (r: Option<string>)
    ensures r.Some? ==> Overlaps(r.value, t) && s.act(d, SelectByText(r.value))
    ensures r.Some? ==> s.options(d).Returns?
                        && exists i :: FirstWantedAt(s, s.options(d).value, Overlapping(t), i)
                                      && Trim(s.text(s.options(d).value[i]).value) == r.value
    // the first overlapping option is selected whenever selecting it works
    ensures s.options(d).Returns? ==>
              forall i :: FirstWantedAt(s, s.options(d).value, Overlapping(t), i) ==>
                (r.Some? <==> s.act(d, SelectByText(Trim(s.text(s.options(d).value[i]).value))))
    ensures s.options(d).Throws? ==> r.None?
  {
    match s.options(d)
    case Throws => None
    case Returns(options) =>
      FirstOptionIsFirstWanted(s, options, Overlapping(t));
      match FirstOptionFrom(s, options, Overlapping(t), 0)
      case Throws => None
      case Returns(None) => None
      case Returns(Some((_, v))) => if s.act(d, SelectByText(v)) then Some(v) else None
  }

  /** The locator tactic 3 builds for the target. */
  function OptionLocator(t: string): Locator {
    Locator(XPath, "//option[contains(text(), '" + t + "') or text()='" + t + "']")
  }

  /** Tactic 3: click the dropdown open, wait strictly for the option, click it. */
  function ClickOptionTactic(s: Session, d: Element, t: string): (r: Option<Element>)
    ensures r.Some? <==> s.act(d, NativeClick) && VisibleWithin(s, OptionLocator(t), Config.EXPLICIT_WAIT).Some?
                         && s.act(VisibleWithin(s, OptionLocator(t), Config.EXPLICIT_WAIT).value, NativeClick)
    ensures r.Some? ==> VisibleWithin(s, OptionLocator(t), Config.EXPLICIT_WAIT) == r
  {
    if !s.act(d, NativeClick) then None
    else
      match WaitVisible(s, OptionLocator(t))
      case Err(_) => None
      case Ok(option) => if s.act(option, NativeClick) then Some(option) else None
  }

  /** The error `selectDropdownOption` raises, naming the target, around its cause. */
  function SelectFailed(t: string, cause: Error): Error {
    Runtime("Failed to select dropdown option: " + t, Some(cause))
  }

  /** The error of an exhausted index tactic. */
  function AllMethodsFailed(t: string): Error {
    SelectFailed(t, Runtime("All dropdown selection methods failed for: " + t, None))
  }

  /** Tactic 5: select by index the first option whose trimmed text equals or contains the target. Any
      exception raises; finding no such option returns normally without selecting anything. */
  function IndexTactic(s: Session, d: Element, t: string): (r: Result<Selection>)
    ensures r == Ok(Unselected) <==>
              s.options(d).Returns? && forall j :: 0 <= j < |s.options(d).value| ==> Passed(s, s.options(d).value[j], Matching(t))
    ensures r.Ok? && r.value.ByIndex? ==>
              s.options(d).Returns?
              && FirstWantedAt(s, s.options(d).value, Matching(t), r.value.index)
              && Contains(Trim(s.text(s.options(d).value[r.value.index]).value), t)
              && s.act(d, SelectByIndex(r.value.index))
    // the first matching option is selected by its index whenever that selection works, and raises otherwise
    ensures s.options(d).Returns? ==>
              forall i :: FirstWantedAt(s, s.options(d).value, Matching(t), i) ==>
                r == (if s.act(d, SelectByIndex(i)) then Ok(ByIndex(i)) else Err(AllMethodsFailed(t)))
    ensures r.Ok? ==> r.value.ByIndex? || r.value.Unselected?
    ensures r.Err? ==> r.error == AllMethodsFailed(t)
    ensures s.options(d).Throws? ==> r.Err?
  {
    match s.options(d)
    case Throws => Err(AllMethodsFailed(t))
    case Returns(options) =>
      FirstOptionIsFirstWanted(s, options, Matching(t));
      match FirstOptionFrom(s, options, Matching(t), 0)
      case Throws => Err(AllMethodsFailed(t))
      case Returns(None) => Ok(Unselected)
      case Returns(Some((i, v))) =>
        assert v == t || Contains(v, t);
        ContainsEmptyAndSelf(v);
        if s.act(d, SelectByIndex(i)) then Ok(ByIndex(i)) else Err(AllMethodsFailed(t))
  }

  /** `selectDropdownOption(dropdownLocator, optionText)`: a strict wait for the dropdown, then five tactics,
      each tried only after its predecessor failed: exact text, partial text, click, script, index. */
  function SelectDropdownOption(s: Session, l: Locator, t: string): (r: Result<Selection>)
    ensures VisibleWithin(s, l, Config.EXPLICIT_WAIT).None? ==> r == Err(SelectFailed(t, NotVisible(l)))
    ensures VisibleWithin(s, l, Config.EXPLICIT_WAIT).Some? ==>
              var d := VisibleWithin(s, l, Config.EXPLICIT_WAIT).value;
              && (r == Ok(ByText(t)) <==> s.act(d, SelectByText(t)))
              && (r.Ok? && r.value.ByPartialText? <==> !s.act(d, SelectByText(t)) && PartialTactic(s, d, t).Some?)
              && (r.Ok? && r.value.ByPartialText? ==> r == Ok(ByPartialText(PartialTactic(s, d, t).value)))
              && (r.Ok? && r.value.ByClickingOption? <==>
                    !s.act(d, SelectByText(t)) && PartialTactic(s, d, t).None? && ClickOptionTactic(s, d, t).Some?)
              && (r.Ok? && r.value.ByClickingOption? ==> r == Ok(ByClickingOption(ClickOptionTactic(s, d, t).value)))
              && (r == Ok(ByScript) <==>
                    !s.act(d, SelectByText(t)) && PartialTactic(s, d, t).None? && ClickOptionTactic(s, d, t).None?
                    && s.act(d, ScriptSetValue(t)))
              && ((!s.act(d, SelectByText(t)) && PartialTactic(s, d, t).None? && ClickOptionTactic(s, d, t).None?
                   && !s.act(d, ScriptSetValue(t))) ==> r == IndexTactic(s, d, t))
    ensures r.Err? ==> r.error.Runtime? && r.error.message == "Failed to select dropdown option: " + t
  {
    match WaitVisible(s, l)
    case Err(e) => Err(SelectFailed(t, e))
    case Ok(d) =>
      if s.act(d, SelectByText(t)) then Ok(ByText(t))
      else
        match PartialTactic(s, d, t)
        case Some(v) => Ok(ByPartialText(v))
        case None =>
          match ClickOptionTactic(s, d, t)
          case Some(option) => Ok(ByClickingOption(option))
          case None =>
            if s.act(d, ScriptSetValue(t)) then Ok(ByScript)
            else IndexTactic(s, d, t)
  }

  /** An option whose trimmed text is blank overlaps every target (every string contains the empty string):
      when the exact selection fails and the first option is blank, tactic 2 selects the blank option. */
  lemma BlankOptionOverlapsEveryTarget(s: Session, l: Locator, t: string)
    requires VisibleWithin(s, l, Config.EXPLICIT_WAIT).Some?
    requires var d := VisibleWithin(s, l, Config.EXPLICIT_WAIT).value;
             && !s.act(d, SelectByText(t))
             && s.options(d).Returns? && |s.options(d).value| > 0
             && s.text(s.options(d).value[0]).Returns? && Trim(s.text(s.options(d).value[0]).value) == ""
             && s.act(d, SelectByText(""))
    ensures SelectDropdownOption(s, l, t) == Ok(ByPartialText(""))
  {
    ContainsEmptyAndSelf(t);
    assert Overlaps("", t);
  }

  /** When every tactic fails quietly and no option contains the target, the selection returns normally
      although nothing was selected. */
  lemma SilentSelectionWhenNothingMatches(s: Session, l: Locator, t: string)
    requires VisibleWithin(s, l, Config.EXPLICIT_WAIT).Some?
    requires var d := VisibleWithin(s, l, Config.EXPLICIT_WAIT).value;
             && !s.act(d, SelectByText(t)) && PartialTactic(s, d, t).None?
             && ClickOptionTactic(s, d, t).None? && !s.act(d, ScriptSetValue(t))
             && s.options(d).Returns?
             && forall j :: 0 <= j < |s.options(d).value| ==>
                  s.text(s.options(d).value[j]).Returns? && !Contains(Trim(s.text(s.options(d).value[j]).value), t)
    ensures SelectDropdownOption(s, l, t) == Ok(Unselected)
  {
    var d := VisibleWithin(s, l, Config.EXPLICIT_WAIT).value;
    var options := s.options(d).value;
    forall j | 0 <= j < |options|
      ensures Passed(s, options[j], Matching(t))
    {
      var v := Trim(s.text(options[j]).value);
      if v == t {
        ContainsEmptyAndSelf(v);
      }
    }
  }

  // ---------------------------------------------------------------- filters

  /** The location options, in the order they are tried: the data value comes fourth. */
  function LocationOptions(location: string): seq<string> {
    ["Istanbul, Turkiye", "Istanbul", "Turkey", location, "Istanbul, Turkey", "All"]
  }

  /** Selecting option `o` in the dropdown at `l` does not raise. */
  predicate Selectable(s: Session, l: Locator, o: string) {
    SelectDropdownOption(s, l, o).Ok?
  }

  /** `applyLocationFilter(location)`: the location option selected, or None where the source returns false.
      Needs the filter visible (a strict wait); then the first option whose selection does not raise. */
  function ApplyLocationFilter(s: Session, location: string): (r: Option<string>)
    ensures VisibleWithin(s, LOCATION_FILTER, Config.EXPLICIT_WAIT).None? ==> r.None?
    ensures r.Some? ==> exists i :: 0 <= i < |LocationOptions(location)|
                                    && LocationOptions(location)[i] == r.value
                                    && Selectable(s, LOCATION_FILTER, r.value)
                                    && forall j :: 0 <= j < i ==> !Selectable(s, LOCATION_FILTER, LocationOptions(location)[j])
    ensures VisibleWithin(s, LOCATION_FILTER, Config.EXPLICIT_WAIT).Some? ==>
              (r.None? <==> forall i :: 0 <= i < |LocationOptions(location)| ==>
                              !Selectable(s, LOCATION_FILTER, LocationOptions(location)[i]))
  {
    if VisibleWithin(s, LOCATION_FILTER, Config.EXPLICIT_WAIT).None? then None
    else FirstAccepted(LocationOptions(location), o => Selectable(s, LOCATION_FILTER, o))
  }

  /** `applyDepartmentFilter(department)`: filter visible and the selection does not raise. */
  function ApplyDepartmentFilter(s: Session, department: string): (r: bool)
    ensures r <==> VisibleWithin(s, DEPARTMENT_FILTER, Config.EXPLICIT_WAIT).Some?
                   && SelectDropdownOption(s, DEPARTMENT_FILTER, department).Ok?
  {
    match WaitVisible(s, DEPARTMENT_FILTER)
    case Err(_) => false
    case Ok(_) => SelectDropdownOption(s, DEPARTMENT_FILTER, department).Ok?
  }

  /** A dropdown whose every tactic failed without an exception still counts as filtered. */
  lemma UnselectedDepartmentCountsAsFiltered(s: Session, department: string)
    requires SelectDropdownOption(s, DEPARTMENT_FILTER, department) == Ok(Unselected)
    ensures ApplyDepartmentFilter(s, department)
  {
  }

  /** The filter criteria as read from the test data: absent, or a map from key to text. */
  type Criteria = Option<map<string, string>>

  /** `filterJobsByLocationAndDepartment()`: false before any filter when the criteria or either key are
      missing; otherwise both filters are applied and either one succeeding is enough. */
  function FilterJobsByLocationAndDepartment(s: Session, criteria: Criteria): (r: bool)
    ensures criteria.None? ==> !r
    ensures criteria.Some? && ("location" !in criteria.value || "department" !in criteria.value) ==> !r
    ensures criteria.Some? && "location" in criteria.value && "department" in criteria.value ==>
              (r <==> ApplyLocationFilter(s, criteria.value["location"]).Some?
                      || ApplyDepartmentFilter(s, criteria.value["department"]))
  {
    match criteria
    case None => false
    case Some(data) =>
      if "location" !in data || "department" !in data then false
      else
        var locationFiltered := ApplyLocationFilter(s, data["location"]).Some?;
        var departmentFiltered := ApplyDepartmentFilter(s, data["department"]);
        locationFiltered || departmentFiltered
  }

  // ---------------------------------------------------------------- the job list

  /** The five job-list locators, in the order they are tried. */
  const JobLocators: seq<Locator> :=
    [JOB_LIST, JOB_LIST_ALTERNATIVE1, JOB_LIST_ALTERNATIVE2, JOB_LIST_ALTERNATIVE3, JOB_LIST_ALTERNATIVE4]

  /** The probe of the job-list search: a locator's elements when there are some. */
  function NonEmptyProbe(s: Session): Locator -> Option<seq<Element>> {
    (l: Locator) => if HasItems(GetElements(s, l)) then GetElements(s, l) else None
  }

  /** The job-list search shared by three methods: the first non-empty result of the five locators; when
      there is none, the last locator's result (null or empty) is what the loop leaves behind. */
  function JobElements(s: Session): (r: Option<seq<Element>>)
    ensures HasItems(r) <==> exists i :: 0 <= i < |JobLocators| && HasItems(GetElements(s, JobLocators[i]))
    ensures HasItems(r) ==> exists i :: 0 <= i < |JobLocators| && GetElements(s, JobLocators[i]) == r
                                        && forall j :: 0 <= j < i ==> !HasItems(GetElements(s, JobLocators[j]))
    ensures !HasItems(r) ==> r == GetElements(s, JOB_LIST_ALTERNATIVE4)
  {
    var run := FirstSome(JobLocators, NonEmptyProbe(s));
    FirstSomeSucceedsIffSomeSucceeds(JobLocators, NonEmptyProbe(s));
    if run.found.Some? then
      var i := |run.tried| - 1;
      assert JobLocators[i] == run.tried[i];
      assert forall j :: 0 <= j < i ==> JobLocators[j] == run.tried[j];
      run.found
    else
      assert JobLocators[4] == JOB_LIST_ALTERNATIVE4;
      GetElements(s, JOB_LIST_ALTERNATIVE4)
  }

  /** `verifyJobListPresent()`: some locator yields items. */
  function VerifyJobListPresent(s: Session): (r: bool)
    ensures r <==> exists i :: 0 <= i < |JobLocators| && HasItems(GetElements(s, JobLocators[i]))
  {
    HasItems(JobElements(s))
  }

  /** `getNumberOfJobs()`: the size of the list the search leaves behind, 0 for null. */
  function GetNumberOfJobs(s: Session): (n: nat)
    ensures n > 0 <==> exists i :: 0 <= i < |JobLocators| && HasItems(GetElements(s, JobLocators[i]))
    ensures n > 0 ==> exists i :: 0 <= i < |JobLocators| && GetElements(s, JobLocators[i]) == Some(JobElements(s).value)
                                  && n == |GetElements(s, JobLocators[i]).value|
  {
    CountOf(JobElements(s))
  }

  /** A positive job count and a present job list are the same verdict. */
  lemma JobCountPositiveIffPresent(s: Session)
    ensures GetNumberOfJobs(s) > 0 <==> VerifyJobListPresent(s)
  {
  }

  // ---------------------------------------------------------------- job details

  /** `getJobDetail(job, locator)`: the trimmed text of the detail inside the job, or null when the lookup
      or the read throws. */
  function GetJobDetail(s: Session, job: Element, l: Locator): (r: Option<string>)
    ensures r.Some? <==> s.child(job, l).Returns? && s.text(s.child(job, l).value).Returns?
    ensures r.Some? ==> r.value == Trim(s.text(s.child(job, l).value).value)
  {
    match s.child(job, l)
    case Throws => None
    case Returns(detail) =>
      match s.text(detail)
      case Throws => None
      case Returns(text) => Some(Trim(text))
  }

  /** The location test: the expected text or one of the two Istanbul spellings. */
  predicate LocationMatches(location: string, expectedLocation: string) {
    Contains(location, expectedLocation) || Contains(location, "Istanbul, Turkiye") || Contains(location, "Istanbul")
  }

  /** "Istanbul, Turkiye" contains "Istanbul", so the middle alternative of the location test never decides. */
  lemma IstanbulTurkiyeIsRedundant(location: string, expectedLocation: string)
    ensures LocationMatches(location, expectedLocation) <==>
              Contains(location, expectedLocation) || Contains(location, "Istanbul")
  {
    if Contains(location, "Istanbul, Turkiye") {
      ContainsPrefix("Istanbul, Turkiye", "Istanbul");
      ContainsTransitive(location, "Istanbul, Turkiye", "Istanbul");
    }
  }

  /** The expected texts of the detail check. */
  datatype Expected = Expected(position: string, department: string, location: string)

  /** One job is valid when its position and department contain the expected texts and its location passes
      the location test; a missing detail fails its part. */
  predicate JobValid(s: Session, job: Element, e: Expected) {
    var position := GetJobDetail(s, job, JOB_POSITION);
    var department := GetJobDetail(s, job, JOB_DEPARTMENT);
    var location := GetJobDetail(s, job, JOB_LOCATION);
    && position.Some? && Contains(position.value, e.position)
    && department.Some? && Contains(department.value, e.department)
    && location.Some? && LocationMatches(location.value, e.location)
  }

  /** The loop over the jobs: every job is checked and the verdicts are conjoined. */
  function AllJobsValid(s: Session, jobs: seq<Element>, e: Expected): (r: bool)
    ensures r <==> forall i :: 0 <= i < |jobs| ==> JobValid(s, jobs[i], e)
  {
    if jobs == [] then true
    else
      var valid := JobValid(s, jobs[0], e);
      var others := AllJobsValid(s, jobs[1..], e);
      assert forall i :: 1 <= i < |jobs| ==> jobs[i] == jobs[1..][i - 1];
      valid && others
  }

  /** The three keys the detail check reads from the test data. */
  function ReadExpected(details: Option<map<string, string>>): (r: Option<Expected>)
    ensures r.Some? <==> details.Some? && "position_contains" in details.value
                         && "department_contains" in details.value && "location_contains" in details.value
    ensures r.Some? ==> r.value == Expected(details.value["position_contains"], details.value["department_contains"],
                                            details.value["location_contains"])
  {
    match details
    case None => None
    case Some(data) =>
      if "position_contains" in data && "department_contains" in data && "location_contains" in data then
        Some(Expected(data["position_contains"], data["department_contains"], data["location_contains"]))
      else None
  }

  /** `verifyAllJobsContainExpectedDetails()`: false for missing expected data or an empty job list;
      otherwise every job found must be valid. */
  function VerifyAllJobsContainExpectedDetails(s: Session, details: Option<map<string, string>>): (r: bool)
    ensures ReadExpected(details).None? ==> !r
    ensures !VerifyJobListPresent(s) ==> !r
    ensures ReadExpected(details).Some? && VerifyJobListPresent(s) ==>
              (r <==> forall i :: 0 <= i < |JobElements(s).value| ==> JobValid(s, JobElements(s).value[i], ReadExpected(details).value))
  {
    match ReadExpected(details)
    case None => false
    case Some(e) =>
      var jobs := JobElements(s);
      if !HasItems(jobs) then false
      else AllJobsValid(s, jobs.value, e)
  }

  /** Valid job details imply a positive job count. */
  lemma ValidDetailsImplyJobs(s: Session, details: Option<map<string, string>>)
    requires VerifyAllJobsContainExpectedDetails(s, details)
    ensures GetNumberOfJobs(s) > 0
  {
  }

  // ---------------------------------------------------------------- View Role

  /** The View Role button's locators, in the order they are tried. */
  const ViewRoleLocators: seq<Locator> :=
    [VIEW_ROLE_BUTTON, VIEW_ROLE_BUTTON_ALTERNATIVE1, VIEW_ROLE_BUTTON_ALTERNATIVE2, VIEW_ROLE_BUTTON_ALTERNATIVE3]

  /** Preparing the first job item: a strict visibility wait and a lookup, a scroll and a pointer hover. */
  predicate FirstJobHovered(s: Session) {
    var item := Resolve(s, FIRST_JOB_ITEM, Config.EXPLICIT_WAIT);
    item.Some? && s.act(item.value, ScrollIntoView) && s.act(item.value, PointerHover)
  }

  /** `clickFirstViewRoleButton()`: hover over the first job, take the first of four locators visible within the
      default wait, then scroll and run the four-tactic ladder. Every failure is caught and reported as false. */
  function ClickFirstViewRoleButton(s: Session): (r: bool)
    ensures r ==> FirstJobHovered(s)
    ensures r ==> exists i :: 0 <= i < |ViewRoleLocators| && Resolve(s, ViewRoleLocators[i], Config.EXPLICIT_WAIT).Some?
    ensures FirstJobHovered(s) && FirstVisible(s, ViewRoleLocators, Config.EXPLICIT_WAIT).Some? ==>
              var button := FirstVisible(s, ViewRoleLocators, Config.EXPLICIT_WAIT).value.1;
              (r <==> s.act(button, ScrollIntoView) && exists i :: 0 <= i < |ClickTactics| && s.act(button, ClickTactics[i]))
  {
    match Resolve(s, FIRST_JOB_ITEM, Config.EXPLICIT_WAIT)
    case None => false
    case Some(item) =>
      if !s.act(item, ScrollIntoView) || !s.act(item, PointerHover) then false
      else
        match FirstVisible(s, ViewRoleLocators, Config.EXPLICIT_WAIT)
        case None => false
        case Some((_, button)) => ScrollThenClick(s, button)
  }

  /** `verifyRedirectToLeverPage()`: the current URL mentions lever; a throwing read is false. */
  function VerifyRedirectToLeverPage(s: Session): (r: bool)
    ensures r <==> s.url.Returns? && Contains(s.url.value, "lever")
  {
    match s.url
    case Throws => false
    case Returns(url) => Contains(url, "lever")
  }
}

=== FILE: screenshot_util.dfy ===
/** Screenshot naming and retention: the file name built from a free-text message, the timestamped path a
    capture is saved under, the name of a failed test's capture, and the choice of old files to delete. */
module ScreenshotUtil {
  import opened Outcomes
  import opened Text
  import Config

  // ---------------------------------------------------------------- names from messages

  /** `message.replaceAll("[^a-zA-Z0-9]", "_")`: every character outside the class becomes one underscore. */
  function Sanitize(message: string): (r: string)
    ensures |r| == |message|
    ensures forall i :: 0 <= i < |message| ==> r[i] == (if IsAsciiAlphanumeric(message[i]) then message[i] else '_')
  {
    if message == [] then []
    else [if IsAsciiAlphanumeric(message[0]) then message[0] else '_'] + Sanitize(message[1..])
  }

  /** The characters a sanitised name may hold. */
  predicate IsNameChar(c: char) {
    IsAsciiAlphanumeric(c) || c == '_'
  }

  /** A sanitised name holds only letters, digits and underscores, and alphanumerics keep their places. */
  lemma SanitizedCharacters(message: string)
    ensures forall i :: 0 <= i < |message| ==> IsNameChar(Sanitize(message)[i])
    ensures forall i :: 0 <= i < |message| && IsAsciiAlphanumeric(message[i]) ==> Sanitize(message)[i] == message[i]
  {
  }

  /** Sanitising a sanitised name changes nothing. */
  lemma SanitizeIdempotent(message: string)
    ensures Sanitize(Sanitize(message)) == Sanitize(message)
  {
    var once := Sanitize(message);
    assert forall i :: 0 <= i < |once| ==> Sanitize(once)[i] == once[i];
  }

  /** Messages of one length that agree wherever either holds a letter or digit share a file name: the
      characters they differ in all become underscores. */
  lemma SanitizeMerges(m1: string, m2: string)
    requires |m1| == |m2|
    requires forall i :: 0 <= i < |m1| ==> m1[i] == m2[i] || (!IsAsciiAlphanumeric(m1[i]) && !IsAsciiAlphanumeric(m2[i]))
    ensures Sanitize(m1) == Sanitize(m2)
  {
    assert forall i :: 0 <= i < |m1| ==> Sanitize(m1)[i] == Sanitize(m2)[i];
  }

  /** Sanitising is not injective: for example, "a b" and "a-b" both become "a_b". */
  lemma SanitizeNotInjective()
    ensures "a b" != "a-b" && Sanitize("a b") == Sanitize("a-b") == "a_b"
  {
    SanitizeMerges("a b", "a-b");
    var x := Sanitize("a b");
    assert x[0] == 'a' && x[1] == '_' && x[2] == 'b';
  }

  const MessagePrefix: string := "Screenshot_"

  /** `takeScreenshotWithMessage`'s file name. */
  function MessageFileName(message: string): (r: string)
    ensures |r| == 11 + |message|
    ensures r[..11] == "Screenshot_"
    ensures forall i :: 11 <= i < |r| ==> IsNameChar(r[i])
    ensures forall i :: 0 <= i < |message| ==>
              r[11 + i] == (if IsAsciiAlphanumeric(message[i]) then message[i] else '_')
  {
    SanitizedCharacters(message);
    MessagePrefix + Sanitize(message)
  }

  /** `takeScreenshotForFailedTest`'s file name: class, test method, and a failure marker. */
  function FailedTestFileName(className: string, testName: string): (r: string)
    ensures |r| == |className| + |testName| + 8
    ensures r[..|className| + 1] == className + "_"
    ensures r[|className| + 1..|r| - 7] == testName
    ensures r[|r| - 7..] == "_FAILED"
  {
    className + "_" + testName + "_FAILED"
  }

  /** Within one class, different test methods get different names. */
  lemma FailedTestNamesDistinct(className: string, t1: string, t2: string)
    requires t1 != t2
    ensures FailedTestFileName(className, t1) != FailedTestFileName(className, t2)
  {
    var n1 := FailedTestFileName(className, t1);
    var n2 := FailedTestFileName(className, t2);
    if |t1| == |t2| {
      var k :| 0 <= k < |t1| && t1[k] != t2[k];
      assert n1[|className| + 1 + k] == t1[k];
      assert n2[|className| + 1 + k] == t2[k];
    }
  }

  // ---------------------------------------------------------------- the timestamp

  /** A calendar date and wall-clock time, as the clock reports it. */
  datatype DateTime = DateTime(year: nat, month: nat, day: nat, hour: nat, minute: nat, second: nat)

  /** Field ranges a formatted timestamp can carry in its fixed width. */
  predicate Formattable(t: DateTime) {
    t.year <= 9999 && 1 <= t.month <= 12 && 1 <= t.day <= 31 && t.hour < 24 && t.minute < 60 && t.second < 60
  }

  function DigitChar(d: nat): char
    requires d < 10
  {
    ('0' as int + d) as char
  }

  predicate IsDigit(c: char) {
    '0' <= c <= '9'
  }

  function DigitOf(c: char): nat
    requires IsDigit(c)
  {
    c as int - '0' as int
  }

  /** The decimal digits of `n`, without leading zeros. */
  function Digits(n: nat): (r: string)
    ensures |r| > 0
    ensures forall i :: 0 <= i < |r| ==> IsDigit(r[i])
  {
    if n < 10 then [DigitChar(n)] else Digits(n / 10) + [DigitChar(n % 10)]
  }

  /** The value of a string of decimal digits. */
  function DigitsValue(s: string): nat
    requires forall i :: 0 <= i < |s| ==> IsDigit(s[i])
  {
    if s == [] then 0 else DigitsValue(s[..|s| - 1]) * 10 + DigitOf(s[|s| - 1])
  }

  function Pow10(k: nat): (r: nat)
    ensures r >= 1
  {
    if k == 0 then 1 else 10 * Pow10(k - 1)
  }

  /** A run of `k` zeros. */
  function Zeros(k: nat): (r: string)
    ensures |r| == k
    ensures forall i :: 0 <= i < k ==> r[i] == '0'
  {
    if k == 0 then [] else Zeros(k - 1) + ['0']
  }

  /** `n` in decimal, left-padded with zeros to at least `width` characters. */
  function ZeroPad(n: nat, width: nat): (r: string)
    ensures forall i :: 0 <= i < |r| ==> IsDigit(r[i])
    ensures n < Pow10(width) && width > 0 ==> |r| == width
  {
    var digits := Digits(n);
    DigitsLength(n, width);
    if |digits| < width then Zeros(width - |digits|) + digits else digits
  }

  lemma {:induction false} DigitsRoundTrip(n: nat)
    ensures DigitsValue(Digits(n)) == n
  {
    if n >= 10 {
      var d := Digits(n);
      assert d[..|d| - 1] == Digits(n / 10);
      DigitsRoundTrip(n / 10);
    }
  }

  lemma {:induction false} DigitsLength(n: nat, k: nat)
    ensures k > 0 && n < Pow10(k) ==> |Digits(n)| <= k
  {
    if n >= 10 && k > 0 {
      DigitsLength(n / 10, k - 1);
    }
  }

  /** Leading zeros do not change a decimal value. */
  lemma {:induction false} LeadingZeros(k: nat, s: string)
    requires forall i :: 0 <= i < |s| ==> IsDigit(s[i])
    ensures forall i :: 0 <= i < |Zeros(k) + s| ==> IsDigit((Zeros(k) + s)[i])
    ensures DigitsValue(Zeros(k) + s) == DigitsValue(s)
  {
    var z := Zeros(k) + s;
    assert forall i :: 0 <= i < |z| ==> IsDigit(z[i]) by {
      forall i | 0 <= i < |z| ensures IsDigit(z[i]) {
        if i < k { assert z[i] == Zeros(k)[i]; } else { assert z[i] == s[i - k]; }
      }
    }
    if s == [] {
      assert z == Zeros(k);
      if k > 0 {
        assert z[..|z| - 1] == Zeros(k - 1);
        LeadingZeros(k - 1, []);
        assert Zeros(k - 1) + [] == Zeros(k - 1);
      }
    } else {
      assert z[..|z| - 1] == Zeros(k) + s[..|s| - 1];
      LeadingZeros(k, s[..|s| - 1]);
    }
  }

  lemma ZeroPadRoundTrip(n: nat, width: nat)
    ensures DigitsValue(ZeroPad(n, width)) == n
  {
    var digits := Digits(n);
    DigitsRoundTrip(n);
    if |digits| < width {
      LeadingZeros(width - |digits|, digits);
    }
  }

  /** `new SimpleDateFormat("yyyyMMdd_HHmmss").format(date)`. */
  function FormatTimestamp(t: DateTime): (r: string)
    ensures Formattable(t) ==> |r| == 15 && r[8] == '_'
  {
    ZeroPad(t.year, 4) + ZeroPad(t.month, 2) + ZeroPad(t.day, 2) + "_"
    + ZeroPad(t.hour, 2) + ZeroPad(t.minute, 2) + ZeroPad(t.second, 2)
  }

  /** Read the fields back out of a formatted timestamp. */
  function ParseTimestamp(s: string): DateTime
    requires |s| == 15
    requires forall i :: 0 <= i < 15 && i != 8 ==> IsDigit(s[i])
  {
    DateTime(DigitsValue(s[0..4]), DigitsValue(s[4..6]), DigitsValue(s[6..8]),
             DigitsValue(s[9..11]), DigitsValue(s[11..13]), DigitsValue(s[13..15]))
  }

  /** The three pieces of a concatenation are its slices at the pieces' lengths. */
  lemma Pieces(a: string, b: string, c: string)
    ensures (a + b + c)[..|a|] == a
    ensures (a + b + c)[|a|..|a| + |b|] == b
    ensures (a + b + c)[|a| + |b|..] == c
  {
    var w := a + b + c;
    assert w == a + (b + c);
    assert w[|a|..] == b + c;
  }

  /** Where each field of a formatted timestamp sits. */
  lemma TimestampFields(t: DateTime)
    requires Formattable(t)
    ensures var s := FormatTimestamp(t);
            && s[0..4] == ZeroPad(t.year, 4) && s[4..6] == ZeroPad(t.month, 2) && s[6..8] == ZeroPad(t.day, 2)
            && s[9..11] == ZeroPad(t.hour, 2) && s[11..13] == ZeroPad(t.minute, 2) && s[13..15] == ZeroPad(t.second, 2)
  {
    var y, mo, d := ZeroPad(t.year, 4), ZeroPad(t.month, 2), ZeroPad(t.day, 2);
    var h, mi, se := ZeroPad(t.hour, 2), ZeroPad(t.minute, 2), ZeroPad(t.second, 2);
    assert Pow10(2) == 100 && Pow10(4) == 10000;
    var s := FormatTimestamp(t);
    var date, time := y + mo + d, h + mi + se;
    assert s == date + "_" + time;
    assert s[..8] == date && s[9..] == time;
    Pieces(y, mo, d);
    Pieces(h, mi, se);
    assert s[0..4] == date[0..4] && s[4..6] == date[4..6] && s[6..8] == date[6..8];
    assert s[9..11] == time[0..2] && s[11..13] == time[2..4] && s[13..15] == time[4..6];
  }

  /** Every formattable time is recovered from its timestamp. */
  lemma TimestampRoundTrip(t: DateTime)
    requires Formattable(t)
    ensures var s := FormatTimestamp(t);
            (forall i :: 0 <= i < 15 && i != 8 ==> IsDigit(s[i])) && ParseTimestamp(s) == t
  {
    var s := FormatTimestamp(t);
    TimestampFields(t);
    forall i | 0 <= i < 15 && i != 8
      ensures IsDigit(s[i])
    {
      if i < 4 { assert s[i] == s[0..4][i]; }
      else if i < 6 { assert s[i] == s[4..6][i - 4]; }
      else if i < 8 { assert s[i] == s[6..8][i - 6]; }
      else if i < 11 { assert s[i] == s[9..11][i - 9]; }
      else if i < 13 { assert s[i] == s[11..13][i - 11]; }
      else { assert s[i] == s[13..15][i - 13]; }
    }
    ZeroPadRoundTrip(t.year, 4);
    ZeroPadRoundTrip(t.month, 2);
    ZeroPadRoundTrip(t.day, 2);
    ZeroPadRoundTrip(t.hour, 2);
    ZeroPadRoundTrip(t.minute, 2);
    ZeroPadRoundTrip(t.second, 2);
  }

  // ---------------------------------------------------------------- file name and path

  /** The name a capture is saved under: `fileName_timestamp.png`. */
  function FullFileName(fileName: string, t: DateTime): string {
    fileName + "_" + FormatTimestamp(t) + ".png"
  }

  /** The path a capture is saved at: the screenshot directory followed by the full name. */
  function ScreenshotPath(fileName: string, t: DateTime): (r: string)
    ensures Formattable(t) ==> |r| == |Config.SCREENSHOT_PATH| + |fileName| + 20
    ensures |r| >= |Config.SCREENSHOT_PATH| + |fileName| + 5
    ensures r[..|Config.SCREENSHOT_PATH|] == Config.SCREENSHOT_PATH
    ensures r[|r| - 4..] == ".png"
  {
    Config.SCREENSHOT_PATH + FullFileName(fileName, t)
  }

  /** A path gives back the file name and the time it was built from. */
  lemma PathRoundTrip(fileName: string, t: DateTime)
    requires Formattable(t)
    ensures var p := ScreenshotPath(fileName, t);
            var stamp := p[|p| - 19..|p| - 4];
            && p[|Config.SCREENSHOT_PATH|..|p| - 20] == fileName
            && p[|p| - 20] == '_'
            && (forall i :: 0 <= i < 15 && i != 8 ==> IsDigit(stamp[i]))
            && ParseTimestamp(stamp) == t
  {
    var p := ScreenshotPath(fileName, t);
    var n := |Config.SCREENSHOT_PATH|;
    assert p == Config.SCREENSHOT_PATH + fileName + "_" + FormatTimestamp(t) + ".png";
    assert p[n..|p| - 20] == fileName;
    assert p[|p| - 19..|p| - 4] == FormatTimestamp(t);
    TimestampRoundTrip(t);
  }

  // ---------------------------------------------------------------- capture

  /** How saving a capture went: copied, failed with an IOException, or failed otherwise (for example a
      browser that cannot take screenshots). */
  datatype Capture = Saved | IOFailure | OtherFailure

  /** `takeScreenshot(driver, fileName)`: the saved path, null after an IOException; any other failure is not
      caught and propagates to the caller. */
  function TakeScreenshot(fileName: string, now: DateTime, capture: Capture): (r: Result<Option<string>>)
    ensures r == Ok(Some(ScreenshotPath(fileName, now))) <==> capture.Saved?
    ensures r == Ok(None) <==> capture.IOFailure?
    ensures r.Err? <==> capture.OtherFailure?
  {
    match capture
    case Saved => Ok(Some(ScreenshotPath(fileName, now)))
    case IOFailure => Ok(None)
    case OtherFailure => Err(BrowserFault)
  }

  /** `takeScreenshotWithMessage(driver, message)`: a screenshot named after the sanitised message. */
  function TakeScreenshotWithMessage(message: string, now: DateTime, capture: Capture): (r: Result<Option<string>>)
    ensures capture.Saved? ==> r == Ok(Some(ScreenshotPath(MessageFileName(message), now)))
    ensures r == Ok(None) <==> capture.IOFailure?
    ensures r.Err? <==> capture.OtherFailure?
  {
    TakeScreenshot(MessageFileName(message), now, capture)
  }

  /** `takeScreenshotForFailedTest(driver, className, testName)`: a screenshot named after the failed test. */
  function TakeScreenshotForFailedTest(className: string, testName: string, now: DateTime, capture: Capture): (r: Result<Option<string>>)
    ensures capture.Saved? ==> r == Ok(Some(ScreenshotPath(FailedTestFileName(className, testName), now)))
    ensures r == Ok(None) <==> capture.IOFailure?
    ensures r.Err? <==> capture.OtherFailure?
  {
    TakeScreenshot(FailedTestFileName(className, testName), now, capture)
  }

  // ---------------------------------------------------------------- retention

  /** Java's `int`. */
  type Int32 = x: int | -0x8000_0000 <= x < 0x8000_0000

  /** Java's `long`. */
  type Int64 = x: int | -0x8000_0000_0000_0000 <= x < 0x8000_0000_0000_0000

  /** Two's-complement wrap-around into 32 bits. */
  function Wrap32(x: int): (r: Int32)
    ensures -0x8000_0000 <= x < 0x8000_0000 ==> r == x
  {
    (x + 0x8000_0000) % 0x1_0000_0000 - 0x8000_0000
  }

  /** Two's-complement wrap-around into 64 bits. */
  function Wrap64(x: int): (r: Int64)
    ensures -0x8000_0000_0000_0000 <= x < 0x8000_0000_0000_0000 ==> r == x
  {
    (x + 0x8000_0000_0000_0000) % 0x1_0000_0000_0000_0000 - 0x8000_0000_0000_0000
  }

  /** The cutoff as written: `days * 24 * 60 * 60` is evaluated in `int` before the `long` multiplication. */
  function CutoffAsWritten(now: Int64, days: Int32): Int64 {
    var seconds := Wrap32(Wrap32(Wrap32(days * 24) * 60) * 60);
    Wrap64(now - Wrap64(seconds * 1000))
  }

  /** The cutoff with the whole product in `long`: `days` days before `now`, in milliseconds. */
  function Cutoff(now: Int64, days: Int32): Int64 {
    Wrap64(now - days * 86_400_000)
  }

  /** For any present-day clock, the corrected cutoff lies exactly `days` days before now. */
  lemma CutoffIsDaysBeforeNow(now: Int64, days: Int32)
    requires 0 <= now < 0x4000_0000_0000_0000
    ensures now - Cutoff(now, days) == days * 86_400_000
    ensures days >= 0 ==> Cutoff(now, days) <= now
  {
  }

  /** The two agree while `days * 86400` fits in an `int`, that is for |days| up to 24855. */
  lemma CutoffAgreesWithoutOverflow(now: Int64, days: Int32)
    requires 0 <= now < 0x4000_0000_0000_0000
    requires -0x8000_0000 <= days * 86400 < 0x8000_0000
    ensures CutoffAsWritten(now, days) == Cutoff(now, days)
  {
    assert days * 24 == Wrap32(days * 24);
    assert days * 24 * 60 == Wrap32(days * 24 * 60);
    assert days * 86400 == Wrap32(days * 24 * 60 * 60);
  }

  /** At 24856 days the `int` product wraps negative, so the cutoff lands some 68 years AFTER now: every
      regular file is then old enough to delete. */
  lemma CutoffOverflowCounterexample(now: Int64)
    requires 0 <= now < 0x4000_0000_0000_0000
    ensures CutoffAsWritten(now, 24856) == now + 2_147_408_896_000
    ensures CutoffAsWritten(now, 24856) > now
    ensures Cutoff(now, 24856) < now
  {
    assert Wrap32(24856 * 24) == 596544;
    assert Wrap32(596544 * 60) == 35792640;
    assert Wrap32(35792640 * 60) == -2147408896;
    assert Wrap64(-2147408896 * 1000) == -2147408896000;
  }

  /** One entry of the screenshot directory as the file system reports it. */
  datatype FileEntry = FileEntry(isFile: bool, lastModified: Int64, deletes: bool)

  /** The screenshot directory: missing, present but unlistable (`listFiles()` returns null), or listed. */
  datatype Directory = Missing | Unlistable | Listing(files: seq<FileEntry>)

  /** A file old enough to delete: a regular file modified strictly before the cutoff. */
  predicate Expired(f: FileEntry, cutoff: int) {
    f.isFile && f.lastModified < cutoff
  }

  /** `cleanOldScreenshots(days)`: the indices of the directory entries whose deletion was attempted and of
      those deleted (the count logged is the number deleted). A missing or unlistable directory is left alone. */
  method CleanOldScreenshots(dir: Directory, now: Int64, days: Int32) returns (attempted: seq<nat>, deleted: seq<nat>)
    ensures dir.Missing? || dir.Unlistable? ==> attempted == [] && deleted == []
    ensures dir.Listing? ==>
              (forall i :: i in attempted <==> 0 <= i < |dir.files| && Expired(dir.files[i], Cutoff(now, days)))
    ensures dir.Listing? ==>
              (forall i :: i in deleted <==> 0 <= i < |dir.files| && Expired(dir.files[i], Cutoff(now, days)) && dir.files[i].deletes)
    ensures forall j, k :: 0 <= j < k < |attempted| ==> attempted[j] < attempted[k]
    ensures forall j, k :: 0 <= j < k < |deleted| ==> deleted[j] < deleted[k]
  {
    attempted, deleted := [], [];
    if dir.Missing? || dir.Unlistable? {
      return;
    }
    var files := dir.files;
    var cutoff := Cutoff(now, days);
    var n := 0;
    while n < |files|
      invariant 0 <= n <= |files|
      invariant forall i :: i in attempted <==> 0 <= i < n && Expired(files[i], cutoff)
      invariant forall i :: i in deleted <==> 0 <= i < n && Expired(files[i], cutoff) && files[i].deletes
      invariant forall j, k :: 0 <= j < k < |attempted| ==> attempted[j] < attempted[k]
      invariant forall j, k :: 0 <= j < k < |deleted| ==> deleted[j] < deleted[k]
      invariant forall j :: 0 <= j < |attempted| ==> attempted[j] < n
      invariant forall j :: 0 <= j < |deleted| ==> deleted[j] < n
    {
      if Expired(files[n], cutoff) {
        attempted := attempted + [n];
        if files[n].deletes {
          deleted := deleted + [n];
        }
      }
      n := n + 1;
    }
  }
}

=== FILE: text.dfy ===
/** The few java.lang.String operations the suite relies on, over strings of Unicode scalar values. */
module Text {

  /** `sub` occurs in `s` starting at offset `i`. */
  predicate OccursAt(s: string, sub: string, i: int) {
    0 <= i <= |s| - |sub| && s[i..i + |sub|] == sub
  }

  /** `s.contains(sub)`: `sub` occurs in `s` at some offset. */
  predicate Contains(s: string, sub: string) {
    exists i | 0 <= i <= |s| - |sub| :: OccursAt(s, sub, i)
  }

  /** Every string contains the empty string and itself. */
  lemma ContainsEmptyAndSelf(s: string)
    ensures Contains(s, "")
    ensures Contains(s, s)
  {
    assert OccursAt(s, "", 0);
    assert OccursAt(s, s, 0);
  }

  /** A prefix is contained in the string. */
  lemma ContainsPrefix(s: string, p: string)
    requires |p| <= |s| && s[..|p|] == p
    ensures Contains(s, p)
  {
    assert OccursAt(s, p, 0);
  }

  /** Containment is transitive: an occurrence of an occurrence is an occurrence. */
  lemma ContainsTransitive(a: string, b: string, c: string)
    requires Contains(a, b) && Contains(b, c)
    ensures Contains(a, c)
  {
    var i :| 0 <= i <= |a| - |b| && OccursAt(a, b, i);
    var j :| 0 <= j <= |b| - |c| && OccursAt(b, c, j);
    assert a[i..i + |b|] == b && b[j..j + |c|] == c;
    forall k | 0 <= k < |c|
      ensures a[i + j + k] == c[k]
    {
      assert a[i + j + k] == a[i..i + |b|][j + k] == b[j + k] == b[j..j + |c|][k];
    }
    assert a[i + j..i + j + |c|] == c;
    assert OccursAt(a, c, i + j);
  }

  /** Nothing but the empty string fits in the empty string. */
  lemma ContainedInEmpty(sub: string)
    requires Contains("", sub)
    ensures sub == ""
  {
  }

  /** The characters `String.trim()` removes: everything at or below U+0020. */
  predicate IsTrimmable(c: char) {
    c <= ' '
  }

  /** The number of trimmable characters at the front of `s`. */
  function StartIndex(s: string): (i: nat)
    ensures i <= |s|
    ensures forall k :: 0 <= k < i ==> IsTrimmable(s[k])
    ensures i < |s| ==> !IsTrimmable(s[i])
  {
    if s == [] || !IsTrimmable(s[0]) then 0 else 1 + StartIndex(s[1..])
  }

  /** The length of `s` without its trimmable tail. */
  function EndIndex(s: string): (j: nat)
    ensures j <= |s|
    ensures forall k :: j <= k < |s| ==> IsTrimmable(s[k])
    ensures j > 0 ==> !IsTrimmable(s[j - 1])
  {
    if s == [] || !IsTrimmable(s[|s| - 1]) then |s| else EndIndex(s[..|s| - 1])
  }

  /** `s.trim()`: drop the trimmable characters at both ends. */
  function Trim(s: string): (r: string)
    ensures r == [] <==> forall k :: 0 <= k < |s| ==> IsTrimmable(s[k])
    ensures r != [] ==> StartIndex(s) < EndIndex(s) && r == s[StartIndex(s)..EndIndex(s)]
    ensures r != [] ==> !IsTrimmable(r[0]) && !IsTrimmable(r[|r| - 1])
  {
    var i := StartIndex(s);
    var j := EndIndex(s);
    if i < j then s[i..j] else []
  }

  /** Trimming twice is trimming once. */
  lemma TrimIdempotent(s: string)
    ensures Trim(Trim(s)) == Trim(s)
  {
    var r := Trim(s);
    if r != [] {
      assert StartIndex(r) == 0;
      assert EndIndex(r) == |r|;
    }
  }

  /** ASCII letters and digits: the class `[a-zA-Z0-9]`. */
  predicate IsAsciiAlphanumeric(c: char) {
    ('a' <= c <= 'z') || ('A' <= c <= 'Z') || ('0' <= c <= '9')
  }

  /** `toLowerCase()` restricted to the ASCII upper-case letters. */
  function LowerAscii(s: string): (r: string)
    ensures |r| == |s|
    ensures forall i :: 0 <= i < |s| ==> r[i] == (if 'A' <= s[i] <= 'Z' then (s[i] as int + 32) as char else s[i])
  {
    if s == [] then []
    else [if 'A' <= s[0] <= 'Z' then (s[0] as int + 32) as char else s[0]] + LowerAscii(s[1..])
  }

  /** Lower-casing an already lower-cased string changes nothing. */
  lemma LowerAsciiIdempotent(s: string)
    ensures LowerAscii(LowerAscii(s)) == LowerAscii(s)
  {
    var once := LowerAscii(s);
    forall i | 0 <= i < |s|
      ensures !('A' <= once[i] <= 'Z')
    {
      if 'A' <= s[i] <= 'Z' {
        assert 'a' as int <= once[i] as int <= 'z' as int;
      }
    }
  }

  /** `s.replace(" ", "")`: every space removed, all other characters kept in order. */
  function RemoveSpaces(s: string): (r: string)
    ensures ' ' !in r
    ensures |r| <= |s|
    ensures multiset(r) == multiset(s)[' ' := 0]
    ensures ' ' !in s ==> r == s
  {
    if s == [] then []
    else
      assert s == [s[0]] + s[1..];
      (if s[0] == ' ' then [] else [s[0]]) + RemoveSpaces(s[1..])
  }

  /** Removing spaces works piece by piece, so the kept characters stay in their order. */
  lemma {:induction false} RemoveSpacesAppend(a: string, b: string)
    ensures RemoveSpaces(a + b) == RemoveSpaces(a) + RemoveSpaces(b)
  {
    if a != [] {
      assert (a + b)[0] == a[0] && (a + b)[1..] == a[1..] + b;
      RemoveSpacesAppend(a[1..], b);
    } else {
      assert a + b == b;
    }
  }
}
